=== FILE: README.md ===
# A verified model of the job-posting scraper's pipeline

`main.py` scrapes job pages from a listing site and posts each one to a
Telegram channel. A MongoDB collection of already-posted page URLs keeps
posts from repeating. Almost everything the script does is I/O. Under the
I/O there is a set of deterministic rules, and this project models those
rules in Dafny and proves what they guarantee:

- **Attachment download** (`download_and_verify_file`). The extension comes
  from the `Content-Type` header: `pdf` gives `.pdf`, `image` gives the
  subtype, and anything else gives the URL path's `splitext` extension or
  `.pdf`. The file name is the path's base name (or `download`) with the
  extension appended. The streamed body is written chunk by chunk. A file
  is kept only when it is non-empty.
  The SSL-error branch never yields a file.
- **Link shortening** (`shorten_url`): the shortener's answer, or the URL
  itself when the shortener raises.
- **Link classification** (`scrape_selected_url`). A link is kept when its
  bold label, stripped of `:`, mentions one of four keywords. Kept links go
  into an insertion-ordered dict, so a repeated label overwrites the
  earlier value in place.
- **Message composition and attachment choice**
  (`handle_files_and_send_to_telegram`). The message is a header, one line
  per dict entry in dict order, and a fixed footer. At most one file is
  attached, chosen by name: the name the last successful `Job Notification`
  download returned, else the name of the first other successful download,
  else none. All downloads share one directory, so two links saved under
  the same name share one file. An example is two `text/html` links at path
  `/`, which are both saved as `download.pdf`. The file then holds the later
  download's bytes whichever entry it was chosen for. A later empty
  download under that name deletes the file, and the send then raises.
- **Deduplication** (`get_unscraped_urls`, `scrape_and_send`, `main`). The
  discovered URLs are filtered against the store. Each remaining URL is
  checked again before processing and recorded only after its message went
  out. The run is a fold that threads the store, the working directory and
  the log of sent messages.

All outside calls are parameters:

- the `requests` replies (`Reply`, `Response`);
- `urlparse(url).path`;
- the shortener;
- the page extraction done with BeautifulSoup (`Page`);
- the Telegram send (`World.send`), which receives the text and, when a file is attached, the file's name and bytes.

The working directory is a map from file names to bytes (`Disk`). The store
is the sequence of `(url, title)` records inserted so far.

Modules, in dependency order:

- `Wrappers`: `Option`.
- `Strings`: Python's `in`, `find`, `rfind` and `strip` on one character, and line joining.
- `Paths`: `posixpath.basename` and `splitext`.
- `Attachment`: the download.
- `Labels`: classification and the ordered dict.
- `Compose`: shortening, the message, the downloads and the file choice.
- `Pipeline`: the store and the run.

Two behaviours of the code are easy to misread, and the model follows the
code in both:

- Nothing in `main` or `scrape_and_send` catches exceptions, so a failed page
  GET in `scrape_selected_url` or a failed send ends the whole run rather
  than skipping that page. The state records this as `halted`, and nothing
  after that point happens.
- The SSL-error fallback performs the unverified GET but never writes the
  file, so the function returns `None` whatever that GET returns.

## Model

| member | source | states |
|---|---|---|
| Strings.Contains | main.py:46-48 | Python's `t in s` on strings: true exactly when `t` occurs in `s` at some index |
| Strings.Strip | main.py:130 | `text.strip(':')` neither starts nor ends with a colon; with `StripShape` and `StripUnique` this pins it down |
| Strings.StripShape | main.py:130 | `text.strip(':')` is a contiguous slice of the text bordered on both sides only by colons |
| Strings.StripUnique | main.py:130 | any split of the text into colons, a core that neither starts nor ends with a colon, and colons again has exactly `strip(':')` as its core |
| Paths.Basename | main.py:57 | `os.path.basename` of the URL path is the suffix after the last `/`: it holds no `/`, and it is either the whole path or preceded by `/` |
| Paths.SplitExt | main.py:53 | `os.path.splitext` splits the path into two parts that concatenate back to it; a non-empty extension is a dot followed by neither dots nor slashes |
| Paths.SplitExtMatchesDescription | main.py:53 | the extension is non-empty exactly when some dot in the last path component follows a non-dot character of that component and has no dot or slash after it, and it then starts at that dot |
| Attachment.SecondField | main.py:49 | `content_type.split('/')[1]` is missing (the `IndexError` path) exactly when the type has no slash; otherwise it is the text between the first slash and the next slash or the end |
| Attachment.Extension | main.py:45-55 | the extension is a dot followed by no slash; it is missing (the download ends with `None` through the generic handler at lines 85-87) exactly when the header is absent or is an image type with no slash |
| Attachment.ExtensionRule | main.py:45-55 | `pdf` in the content type gives `.pdf`; else `image` gives a dot plus the second `/`-field; else the path's extension where one can start, and `.pdf` where none can |
| Attachment.FileName | main.py:57-58 | the name ends with the extension; the part before it has no `/`; that part is `download` when the path is empty or ends in `/`, and otherwise the path's final component |
| Attachment.Written | main.py:60-63 | the bytes written are non-empty exactly when some chunk is non-empty |
| Attachment.WrittenAppend | main.py:60-63 | writing two runs of chunks in turn writes their bytes in turn: the file is the chunks concatenated in streaming order |
| Attachment.WrittenSingle | main.py:61-63 | a single chunk is written as it is, and an empty one writes nothing |
| Attachment.Download | main.py:40-87 | a returned name is a file on disk holding at least one byte, and a name is returned exactly when the first reply passed `raise_for_status`, has an extension, streamed to the end and had a non-empty chunk; the returned file holds exactly the bytes written from the chunks; an empty download leaves no file; a broken stream leaves the partial file and returns nothing; the SSL branch returns nothing and leaves the disk unchanged; no other file changes |
| Attachment.DownloadSaves | main.py:57-71 | under the name its reply is saved under, a download leaves the written chunks, or no file when the stream completed with no non-empty chunk |
| Attachment.PdfTypeNaming | main.py:46-58 | a PDF content type saves the reply under the path's base name plus `.pdf` |
| Attachment.PathExtensionNaming | main.py:50-58 | a content type mentioning neither `pdf` nor `image` gives a name ending in the path's own extension when it has one, and in `.pdf` otherwise |
| Attachment.UnrecognisedTypeUsesPathExtension | main.py:50-55 | `/files/a.docx` served as `application/msword` gets the extension `.docx` |
| Attachment.ExtensionIsAppendedAgain | main.py:57-58 | the extension is appended even to a base name that already has it: `a.docx` is saved as `a.docx.docx` |
| Labels.RoleOf | main.py:150-159 | the line's role is the first keyword the key mentions, in the order advertisement, notification, official website, apply online; a key has a role exactly when the classifier's keyword test accepts it |
| Labels.Put | main.py:132 | `job_details[text] = href`: afterwards the key maps to the new value and every other key keeps its value; an existing key keeps its position and a new key is appended |
| Labels.Classify | main.py:125-134 | `job_details` has no repeated key, and every key mentions one of the four keywords |
| Labels.CollectMembership | main.py:125-132 | for any label cleaning and keyword test, a key is in the dict exactly when some link is filed under it |
| Labels.CollectLast | main.py:125-132 | for any label cleaning and keyword test, a key in the dict maps to the `href` of the last link filed under it, because a later assignment overwrites an earlier one |
| Labels.ClassifyContents | main.py:125-134 | a label is in the dict exactly when some link's colon-stripped label equals it and mentions a keyword, and it maps to the `href` of the last such link |
| Labels.CollectKeepsPositions | main.py:125-132 | the dict's keys never move: the keys after any prefix of the links are a prefix of the final keys |
| Labels.ClassifyFirstOccurrenceOrder | main.py:125-132 | dict order is first-kept order: when key `a` comes before key `b`, every link kept under `b` is preceded by a link kept under `a` |
| Compose.Shorten | main.py:90-96 | `shorten_url` returns the shortener's answer, or the URL unchanged when the shortener raises |
| Compose.Message | main.py:142-169 | the message begins with `📢 {title} 📢` and a blank line, and ends with the promo footer verbatim |
| Compose.MessageFrame | main.py:147-159 | what lies between the header and the footer is the entry lines, each followed by a newline |
| Compose.MessageLines | main.py:147-159 | when no short link holds a newline, and neither does any key that is written out in its line (only keys without one of the four roles are), splitting the text between header and footer at newlines gives exactly one line per dict entry, in dict order, made of the role caption and the entry's short link |
| Compose.MessageCarriesLinks | main.py:148-159 | every entry's short link appears in the message |
| Compose.ShortenerFailureKeepsUrl | main.py:90-96 | when the shortener fails for an entry, that entry's original URL appears in the message |
| Compose.ClassifiedKeysHaveRoles | main.py:131-159 | entries of a classified dict always get one of the four captions; the generic line is unreachable for them |
| Compose.CollectedNotification | main.py:161-164 | `job_notification_file` ends as the last successful notification download, or `None` when there is none |
| Compose.CollectedOthers | main.py:161-166 | `other_files` is non-empty exactly when a non-notification download succeeded, and starts with the first one |
| Compose.SelectFile | main.py:171 | `file_to_send`, when present, is a truthy name and one of the download results |
| Compose.SelectionRule | main.py:161-176 | the attached file is the last successful notification download if there is one; otherwise the first other successful download; otherwise none; whatever is attached is one of the downloads |
| Compose.DownloadAll | main.py:147-166 | one download per entry in dict order; entry `i` gets a name exactly when its own download succeeds, and then the name its reply was saved under, which is non-empty |
| Compose.DownloadAllFrame | main.py:147-166 | the downloads leave every file that no entry is saved under exactly as it was |
| Compose.DownloadAllLastWrite | main.py:147-166 | after the downloads, a name holds the bytes written by the last entry saved under it; there is no file under that name when that entry's stream completed with no non-empty chunk |
| Compose.HandleFiles | main.py:137-176 | the outgoing text is the composed message; the attached file is the one `SelectionRule` describes and is the saved name of one of the entries; the directory is the one the downloads leave |
| Compose.AttachedFileContents | main.py:161-174 | the attached file holds the written bytes of the entry it was chosen for, unless a later entry was saved under the same name |
| Compose.AttachmentChoice | main.py:161-176 | in terms of the replies: the file of the last notification entry whose download succeeds is attached; without one, the file of the first other entry whose download succeeds; when no download succeeds, no file |
| Pipeline.Unscraped | main.py:197-202 | a URL is in the result exactly when it is among the discovered URLs and the store lacks it |
| Pipeline.UnscrapedAppend | main.py:197-202 | the filter distributes over concatenation, so it keeps discovery order |
| Pipeline.UnscrapedSingle | main.py:199-201 | a single URL is kept exactly when the store lacks it |
| Pipeline.Notify | main.py:29-37 | without a file the text is sent alone; with a file, the file's name, which the channel shows as the document name, and its bytes go with the text; a file missing from the directory makes the send fail |
| Pipeline.Deliver | main.py:189-192 | the page is recorded exactly when the notifier accepts the composed message with the selected file's name and bytes; then exactly one message is logged, for this URL and title, with that text and attachment, and exactly one record is added; a failed send records nothing and ends the run |
| Pipeline.ScrapeAndSend | main.py:184-194 | a URL already in the store changes nothing; an untitled or empty-titled page changes nothing; a scrape that raises ends the run; a titled page is recorded exactly when the notifier accepts its message, and the log then holds that message and attachment; a run ends only when the scrape raises or the send fails, and then nothing is recorded |
| Pipeline.Run | main.py:211-214 | once an exception has ended the run nothing further happens; the log and the store never shrink |
| Pipeline.RunAppend | main.py:211-213 | the loop takes the URLs in list order: a run over `a + b` is a run over `a` followed by a run over `b`, so every page before the first exception is processed and none after it |
| Pipeline.RunSingle | main.py:211-213 | one URL is one `scrape_and_send` step, unless an exception has already ended the run |
| Pipeline.Main | main.py:205-216 | when every discovered page is recorded, `main` changes nothing |
| Pipeline.StepGrows | main.py:184-194 | one step adds at most one message and one matching record, for the URL processed, which the store lacked before and holds after; no record is lost |
| Pipeline.RunLedger | main.py:211-214 | after the loop the store is the old store followed by one `(url, title)` record per message sent, in sending order |
| Pipeline.RunKeepsRecords | main.py:178-182 | a URL once recorded stays recorded |
| Pipeline.RunSendsOnce | main.py:184-187 | within one loop no URL is sent twice, even when listed twice; none that the store held at the start is sent; every sent URL is one of the listed URLs |
| Pipeline.RunDeliveriesAccepted | main.py:191-192 | every message a loop logs, and so every page it records, is one the notifier accepted with that text and attachment |
| Pipeline.RunSettles | main.py:211-214 | a loop that is not ended by an exception leaves every listed URL either recorded or without a title |
| Pipeline.SettledRunIsIdle | main.py:184-194 | a loop over URLs that are all recorded or untitled changes nothing |
| Pipeline.MainSendsEachPageOnce | main.py:205-216 | in one `main` run each page is sent at most once, and only discovered pages that the store lacked are sent |
| Pipeline.RunAgainIsIdle | main.py:205-216 | after a run that was not ended by an exception, a second run in the same world over the same discovered URLs sends nothing and changes nothing |

## Left out

- HTTP through `requests` (lines 42, 78, 101, 115) is left out: a reply is an abstract `Reply`. TLS verification, status codes, headers other than `Content-Type`, and the 8192-byte chunking are not modelled.
- `urlparse(url).path` is an oracle (`Web.urlPath`). `posixpath.basename` and `splitext` are modelled.
- BeautifulSoup selection (lines 102-104, 116-129) is the `Page` oracle: it supplies the title (already whitespace-stripped) and the `(label text, href)` pairs. The oracle also reports, as `Raises`, the two exceptions the extraction loop can raise. One is a `find_previous('b')` that finds no bold tag (line 130). The other is `link['href']` on a kept link that has no `href` attribute, which raises `KeyError` (line 132).
- `fetch_urls` (lines 99-111) and its `urljoin` are left out. The discovered URL list is an input, so a failed discovery GET is not modelled.
- The Telegram `Bot` and asyncio (lines 29-37, 205-220) are left out. A send is an oracle that returns or raises, and the caption length limits are inside that oracle.
- MongoDB (lines 24-26, 178-182) is a sequence of `(url, title)` records. The `scraped_at` timestamp is left out, and store failures are not modelled.
- The `time.sleep` calls (lines 91, 214) and the log `print`s are left out: they are pacing and output only.
- Environment configuration (lines 12-21) is left out.
- File-system failures other than a missing file at send time are left out, such as an unwritable directory.
- Compose.HandleFiles: the `if title is None` check at lines 138-140 is not modelled, because `scrape_and_send` only calls the function with a non-empty title.
- Pipeline.ScrapeAndSend: a scrape that raises is one outcome, `Raises`. The model does not tell apart which statement raised.

=== FILE: attachment.dfy ===
/**
  `download_and_verify_file`: choosing the local file name of an attachment
  from its `Content-Type` header and URL path, writing the streamed body,
  and keeping the file only when it is non-empty.

  The HTTP exchange is an abstract `Reply`; the working directory is a
  `Disk` mapping file names to their bytes.
 */
module Attachment {
  import opened Wrappers
  import opened Strings
  import opened Paths

  type Bytes = seq<bv8>

  /** The files in the working directory, by name. */
  type Disk = map<string, Bytes>

  /**
    What the streamed GET delivered: whether `raise_for_status` passed, the
    `Content-Type` header if present, the chunks `iter_content` yielded, and
    whether the stream raised after those chunks.
   */
  datatype Response = Response(statusOk: bool, contentType: Option<string>, chunks: seq<Bytes>, streamBreaks: bool)

  /** The outcome of one `requests.get`: a response, an SSL error, or any other exception. */
  datatype Reply = Answered(response: Response) | TlsFailure | Failed

  /** The default extension, used for PDF content types and when the URL path has none. */
  const PdfExtension := ".pdf"

  /** The base name used when the URL path ends in `/` or is empty. */
  const PlaceholderName := "download"

  /**
    `f` is the second `/`-separated field of `ct`, found right after the
    first slash (at index `i`) and running to the next slash or to the end.
   */
  predicate SecondFieldAt(ct: string, f: string, i: int) {
    && 0 <= i && i + 1 + |f| <= |ct|
    && ct[i] == '/'
    && (forall m :: 0 <= m < i ==> ct[m] != '/')
    && ct[i + 1..i + 1 + |f|] == f
    && (forall m :: 0 <= m < |f| ==> f[m] != '/')
    && (i + 1 + |f| == |ct| || ct[i + 1 + |f|] == '/')
  }

  /** `ct.split('/')[1]`, or `None` where Python raises `IndexError` because `ct` holds no slash. */
  function SecondField(ct: string): (r: Option<string>)
    ensures r.None? <==> '/' !in ct
    ensures r.Some? ==> exists i :: SecondFieldAt(ct, r.value, i)
  {
    var i := Find(ct, '/');
    if i < 0 then None
    else
      var rest := ct[i + 1..];
      var j := Find(rest, '/');
      var f := if j < 0 then rest else rest[..j];
      assert SecondFieldAt(ct, f, i);
      Some(f)
  }

  /**
    `extension` in `download_and_verify_file`: a dot followed by no slash,
    or `None` for the exceptions that end the download, which are a missing
    header (`'pdf' in None` raises) and an image type with no slash. The
    choice itself is stated by `ExtensionRule`.
   */
  function Extension(contentType: Option<string>, urlPath: string): (e: Option<string>)
    ensures e.Some? ==> |e.value| > 0 && e.value[0] == '.' && '/' !in e.value[1..]
    ensures e.None? <==> contentType.None? || (!Contains(contentType.value, "pdf") && Contains(contentType.value, "image") && '/' !in contentType.value)
  {
    match contentType
    case None => None
    case Some(ct) =>
      if Contains(ct, "pdf") then Some(PdfExtension)
      else if Contains(ct, "image") then
        match SecondField(ct)
        case None => None
        case Some(sub) => Some("." + sub)
      else
        var ext := SplitExt(urlPath).1;
        if ext == "" then Some(PdfExtension)
        else
          assert '/' !in ext[1..] by {
            forall j | 0 <= j < |ext| - 1 ensures ext[1..][j] != '/' { assert ext[1..][j] == ext[j + 1]; }
          }
          Some(ext)
  }

  /**
    The extension rule. A content type mentioning `pdf` gives `.pdf`;
    otherwise one mentioning `image` gives a dot and its subtype (the text
    between the first and second slash); otherwise the URL path's own
    extension, or `.pdf` when it has none.
   */
  lemma ExtensionRule(ct: string, urlPath: string)
    ensures Contains(ct, "pdf") ==> Extension(Some(ct), urlPath) == Some(PdfExtension)
    ensures !Contains(ct, "pdf") && Contains(ct, "image") && '/' in ct ==>
      var e := Extension(Some(ct), urlPath);
      e.Some? && e.value[0] == '.' && exists i :: SecondFieldAt(ct, e.value[1..], i)
    ensures !Contains(ct, "pdf") && !Contains(ct, "image") ==>
      && ((forall k :: !ExtensionAt(urlPath, k)) ==> Extension(Some(ct), urlPath) == Some(PdfExtension))
      && (forall k :: ExtensionAt(urlPath, k) ==> Extension(Some(ct), urlPath) == Some(urlPath[k..]))
  {
    if !Contains(ct, "pdf") && Contains(ct, "image") && '/' in ct {
      var sub := SecondField(ct).value;
      assert Extension(Some(ct), urlPath) == Some("." + sub);
      assert ("." + sub)[1..] == sub;
    }
    if !Contains(ct, "pdf") && !Contains(ct, "image") {
      SplitExtMatchesDescription(urlPath);
    }
  }

  /**
    The local file name: the URL path's base name (or `download` when that
    is empty) with the extension appended. The extension is appended even
    when the base name already carries one.
   */
  function FileName(urlPath: string, ext: string): (name: string)
    ensures |name| > |ext| && name[|name| - |ext|..] == ext
    ensures var stem := name[..|name| - |ext|];
      && (forall j :: 0 <= j < |stem| ==> stem[j] != '/')
      && (urlPath == "" || urlPath[|urlPath| - 1] == '/' ==> stem == PlaceholderName)
      && (urlPath != "" && urlPath[|urlPath| - 1] != '/' ==>
            |stem| <= |urlPath| && urlPath[|urlPath| - |stem|..] == stem && (|stem| == |urlPath| || urlPath[|urlPath| - |stem| - 1] == '/'))
  {
    var base := Basename(urlPath);
    var stem := if base == "" then PlaceholderName else base;
    assert base == "" <==> urlPath == "" || urlPath[|urlPath| - 1] == '/';
    var name := stem + ext;
    assert name[..|name| - |ext|] == stem;
    name
  }

  /** The bytes the `for chunk in ...: if chunk: file.write(chunk)` loop writes. */
  function Written(chunks: seq<Bytes>): (w: Bytes)
    ensures |w| > 0 <==> exists i :: 0 <= i < |chunks| && |chunks[i]| > 0
  {
    if chunks == [] then []
    else
      var rest := Written(chunks[1..]);
      assert forall i :: 0 < i < |chunks| ==> chunks[i] == chunks[1..][i - 1];
      (if |chunks[0]| > 0 then chunks[0] else []) + rest
  }

  /** Writing two runs of chunks one after the other writes their bytes one after the other. */
  lemma {:induction false} WrittenAppend(a: seq<Bytes>, b: seq<Bytes>)
    ensures Written(a + b) == Written(a) + Written(b)
  {
    if a != [] {
      assert (a + b)[0] == a[0];
      assert (a + b)[1..] == a[1..] + b;
      WrittenAppend(a[1..], b);
    } else {
      assert a + b == b;
    }
  }

  /** A single chunk is written as it is (an empty one writes nothing). */
  lemma WrittenSingle(c: Bytes)
    ensures Written([c]) == c
  {
    assert [c][1..] == [];
  }

  /** The file a reply would be saved under, when the download gets as far as opening one. */
  function Target(urlPath: string, first: Reply): Option<string> {
    if first.Answered? && first.response.statusOk then
      match Extension(first.response.contentType, urlPath)
      case Some(ext) => Some(FileName(urlPath, ext))
      case None => None
    else None
  }

  /** `d2` agrees with `d1` on every file name other than `t`'s. */
  ghost predicate SameExcept(d1: Disk, d2: Disk, t: Option<string>) {
    forall n :: Some(n) != t ==> (n in d1 <==> n in d2) && (n in d1 && n in d2 ==> d1[n] == d2[n])
  }

  /** The result of one download: the returned file name (or `None`) and the working directory afterwards. */
  datatype Fetched = Fetched(name: Option<string>, disk: Disk)

  /** The first reply passed `raise_for_status`, has a usable extension and streamed to the end. */
  predicate Completes(urlPath: string, first: Reply) {
    Target(urlPath, first).Some? && !first.response.streamBreaks
  }

  /** The download returns a file: it completes and some chunk is non-empty. */
  predicate Succeeds(urlPath: string, first: Reply) {
    Completes(urlPath, first) && exists i :: 0 <= i < |first.response.chunks| && |first.response.chunks[i]| > 0
  }

  /**
    `download_and_verify_file(url)` for a URL whose path is `urlPath`.
    `first` is the reply to the GET. The unverified GET that follows an SSL
    error never influences the result, so it is not a parameter.
   */
  function Download(urlPath: string, first: Reply, disk: Disk): (f: Fetched)
    // Integrity: a returned name is a file on disk holding at least one byte.
    ensures f.name.Some? ==> f.name.value in f.disk && |f.disk[f.name.value]| > 0
    // A name is returned exactly when the download completes and some chunk is non-empty.
    ensures f.name.Some? <==> Completes(urlPath, first) && exists i :: 0 <= i < |first.response.chunks| && |first.response.chunks[i]| > 0
    ensures f.name.Some? ==> Some(f.name.value) == Target(urlPath, first)
    // The saved file holds the non-empty chunks, in streaming order.
    ensures f.name.Some? ==> f.disk[f.name.value] == Written(first.response.chunks)
    // A completed download that returns nothing leaves no file under its name.
    ensures Completes(urlPath, first) && f.name.None? ==> Target(urlPath, first).value !in f.disk
    // A stream that breaks leaves the partial file behind.
    ensures Target(urlPath, first).Some? && first.response.streamBreaks ==>
      f.name.None? && Target(urlPath, first).value in f.disk && f.disk[Target(urlPath, first).value] == Written(first.response.chunks)
    // The SSL-error branch never yields a file, whatever its retry gives.
    ensures first.TlsFailure? ==> f == Fetched(None, disk)
    // Only the target file can change.
    ensures SameExcept(disk, f.disk, Target(urlPath, first))
  {
    match first
    case Failed => Fetched(None, disk)
    case TlsFailure =>
      // The retry's response is checked but never saved; either way the function ends with `None`.
      Fetched(None, disk)
    case Answered(resp) =>
      match Target(urlPath, first)
      case None => Fetched(None, disk)
      case Some(name) =>
        var bytes := Written(resp.chunks);
        if resp.streamBreaks then Fetched(None, disk[name := bytes])
        else if |bytes| > 0 then Fetched(Some(name), disk[name := bytes])
        else Fetched(None, disk - {name})
  }

  /**
    What a download leaves under the name its reply is saved under: the
    written chunks, or no file when the stream completed with nothing in it.
   */
  lemma DownloadSaves(urlPath: string, first: Reply, disk: Disk, n: string)
    requires Target(urlPath, first) == Some(n)
    ensures var d := Download(urlPath, first, disk).disk;
      && (n in d <==> first.response.streamBreaks || |Written(first.response.chunks)| > 0)
      && (n in d ==> d[n] == Written(first.response.chunks))
  {
  }

  /** A reply whose content type mentions `pdf` is saved under the path's base name plus `.pdf`. */
  lemma PdfTypeNaming(resp: Response, urlPath: string)
    requires resp.statusOk && resp.contentType.Some? && Contains(resp.contentType.value, "pdf")
    ensures Target(urlPath, Answered(resp)) == Some(FileName(urlPath, PdfExtension))
  {
    ExtensionRule(resp.contentType.value, urlPath);
  }

  /**
    A reply whose content type mentions neither `pdf` nor `image` is saved
    under a name ending in the path's own extension when it has one, and in
    `.pdf` when it has none.
   */
  lemma PathExtensionNaming(resp: Response, urlPath: string)
    requires resp.statusOk && resp.contentType.Some?
    requires !Contains(resp.contentType.value, "pdf") && !Contains(resp.contentType.value, "image")
    ensures var name := Target(urlPath, Answered(resp)).value;
      && (forall k :: ExtensionAt(urlPath, k) ==> |urlPath| - k < |name| && name[|name| - (|urlPath| - k)..] == urlPath[k..])
      && ((forall k :: !ExtensionAt(urlPath, k)) ==> |name| > 4 && name[|name| - 4..] == PdfExtension)
  {
    ExtensionRule(resp.contentType.value, urlPath);
    var e := Extension(resp.contentType, urlPath).value;
    var name := FileName(urlPath, e);
    assert Target(urlPath, Answered(resp)) == Some(name);
  }

  /** `/files/a.docx` served as `application/msword` takes its extension from the path. */
  lemma UnrecognisedTypeUsesPathExtension(ct: string, p: string)
    requires ct == "application/msword" && p == "/files/a.docx"
    ensures Extension(Some(ct), p) == Some(".docx")
  {
    assert !Contains(ct, "pdf") by {
      MissingCharacterRulesOut(ct, "pdf", 'f');
    }
    assert !Contains(ct, "image") by {
      MissingCharacterRulesOut(ct, "image", 'e');
    }
    assert SplitExt(p).1 == ".docx" by {
      DocxPathSplits(p);
    }
  }

  /** A base name that already has an extension gets a second copy of it: `a.docx` is saved as `a.docx.docx`. */
  lemma ExtensionIsAppendedAgain(p: string)
    requires p == "/files/a.docx"
    ensures FileName(p, ".docx") == "a.docx.docx"
  {
    DocxPathSplits(p);
  }

  /** `splitext` and `basename` on `/files/a.docx`. */
  lemma DocxPathSplits(p: string)
    requires p == "/files/a.docx"
    ensures ExtensionAt(p, 8) && SplitExt(p).1 == ".docx"
    ensures Basename(p) == "a.docx"
  {
    DocxExtension(p);
    DocxBasename(p);
  }

  /** The extension of `/files/a.docx` starts at its last dot. */
  lemma DocxExtension(p: string)
    requires p == "/files/a.docx"
    ensures ExtensionAt(p, 8) && SplitExt(p).1 == ".docx"
  {
    assert ExtensionAt(p, 8) by {
      assert p[7] == 'a';
      assert forall j :: 8 < j < |p| ==> p[j] != '.' && p[j] != '/';
    }
    SplitExtMatchesDescription(p);
    assert p[8..] == ".docx";
  }

  /** The base name of `/files/a.docx` follows its last slash. */
  lemma DocxBasename(p: string)
    requires p == "/files/a.docx"
    ensures Basename(p) == "a.docx"
  {
    var r := RFind(p, '/');
    assert r == 6 by {
      assert p[6] == '/';
      assert forall j :: 6 < j < |p| ==> p[j] != '/';
    }
    assert p[7..] == "a.docx";
  }
}

=== FILE: compose.dfy ===
/**
  `handle_files_and_send_to_telegram` up to the send: shortening each
  link, composing the message text, downloading each link, and choosing the
  one file the message carries.
 */
module Compose {
  import opened Wrappers
  import opened Strings
  import opened Attachment
  import opened Labels

  /**
    The outside services an item's processing calls, as oracles: the URL
    shortener (`None` when it raises), `urlparse(url).path`, and the
    streamed GET of an attachment.
   */
  datatype Web = Web(
    shortener: string -> Option<string>,
    urlPath: string -> string,
    get: string -> Reply)

  /** `shorten_url`: the shortener's answer, or the original URL when the shortener raises. */
  function Shorten(web: Web, url: string): (r: string)
    ensures web.shortener(url).Some? ==> r == web.shortener(url).value
    ensures web.shortener(url).None? ==> r == url
  {
    match web.shortener(url)
    case Some(short) => short
    case None => url
  }

  /** The first line of every message, followed by a blank line. */
  function Header(title: string): string {
    "📢 " + title + " 📢\n\n"
  }

  /** The fixed promotional text every message ends with. */
  const Footer := "\n🚀 આવી જ તમામ જોબ અપડેટ રેગ્યુલર કોઇ પણ એડ વગર જોવા માટે અમારા ચેનલમાં જોડાઇ જાવ ! 🚀\n👉 https://t.me/currentadda 👈"

  /** The glyph and caption in front of a link playing `role` under `key`. */
  function Caption(role: Role, key: string): string {
    match role
    case Advertisement => "📝 Job Advertisement: "
    case Notification => "📄 Job Notification: "
    case Website => "🌐 Official Website: "
    case Application => "🖥️ Apply Online: "
    case Unlabelled => "🔗 " + key + ": "
  }

  /** The glyph and caption in front of an entry's link, by the role of the entry's key. */
  function LinePrefix(key: string): string {
    Caption(RoleOf(key), key)
  }

  /** The message lines, one per map entry in map order, without their newlines. */
  function Lines(m: LinkMap, web: Web): (ls: seq<string>)
    ensures |ls| == |m|
  {
    seq(|m|, i requires 0 <= i < |m| => LinePrefix(m[i].key) + Shorten(web, m[i].href))
  }

  /** The message text: header, one line per entry, footer. */
  function Message(title: string, m: LinkMap, web: Web): (msg: string)
    ensures |Header(title)| + |Footer| <= |msg|
    ensures msg[..|Header(title)|] == Header(title)
    ensures msg[|msg| - |Footer|..] == Footer
  {
    var body := JoinLines(Lines(m, web));
    var msg := Header(title) + body + Footer;
    assert msg[..|Header(title)|] == Header(title);
    assert msg[|msg| - |Footer|..] == Footer;
    msg
  }

  /** Between the header and the footer a message holds the entry lines, each ended by a newline. */
  lemma MessageFrame(title: string, m: LinkMap, web: Web)
    ensures var msg := Message(title, m, web);
      msg[|Header(title)|..|msg| - |Footer|] == JoinLines(Lines(m, web))
  {
    var h := Header(title);
    var body := JoinLines(Lines(m, web));
    var msg := Message(title, m, web);
    assert msg == h + body + Footer;
    assert msg[|h|..|msg| - |Footer|] == body;
  }

  /**
    Between header and footer there is exactly one line per entry, in map
    order, made of the entry's prefix and its short link, provided no short
    link holds a newline and neither does any key that is written out in
    its line (only keys without a role are).
   */
  lemma MessageLines(title: string, m: LinkMap, web: Web)
    requires forall i :: 0 <= i < |m| ==>
      (RoleOf(m[i].key) == Unlabelled ==> '\n' !in m[i].key) && '\n' !in Shorten(web, m[i].href)
    ensures var msg := Message(title, m, web);
      && |Header(title)| + |Footer| <= |msg|
      && var lines := SplitLines(msg[|Header(title)|..|msg| - |Footer|]);
      && |lines| == |m|
      && forall i :: 0 <= i < |m| ==> lines[i] == LinePrefix(m[i].key) + Shorten(web, m[i].href)
  {
    MessageFrame(title, m, web);
    forall i | 0 <= i < |m| ensures '\n' !in Lines(m, web)[i] {
      PrefixHasNoNewline(m[i].key);
    }
    SplitJoinLines(Lines(m, web));
  }

  /** Every entry's short link appears in the message. */
  lemma MessageCarriesLinks(title: string, m: LinkMap, web: Web, i: int)
    requires 0 <= i < |m|
    ensures Contains(Message(title, m, web), Shorten(web, m[i].href))
  {
    var ls := Lines(m, web);
    assert ls[i] == LinePrefix(m[i].key) + Shorten(web, m[i].href);
    LineEndInText(Header(title), ls, Footer, i, LinePrefix(m[i].key), Shorten(web, m[i].href));
  }

  /** The end `s` of line `i` of a joined text occurs in that text, whatever surrounds it. */
  lemma LineEndInText(h: string, xs: seq<string>, f: string, i: int, p: string, s: string)
    requires 0 <= i < |xs| && xs[i] == p + s
    ensures Contains(h + JoinLines(xs) + f, s)
  {
    assert Contains(xs[i], s) by {
      ContainsMiddle(p, s, "");
      assert p + s + "" == xs[i];
    }
    LineInJoin(xs, i);
    ContainsMiddle(h, JoinLines(xs), f);
    ContainsTransitive(JoinLines(xs), xs[i], s);
    ContainsTransitive(h + JoinLines(xs) + f, JoinLines(xs), s);
  }

  /** A line prefix holds a newline only if it writes out the key and the key does. */
  lemma PrefixHasNoNewline(key: string)
    requires RoleOf(key) == Unlabelled ==> '\n' !in key
    ensures '\n' !in LinePrefix(key)
  {
    CaptionHasNoNewline(RoleOf(key), key);
  }

  /** No caption holds a newline, unless it writes out its key and the key does. */
  lemma CaptionHasNoNewline(role: Role, key: string)
    requires role == Unlabelled ==> '\n' !in key
    ensures '\n' !in Caption(role, key)
  {
  }

  /** Every line of a joined text occurs in it. */
  lemma {:induction false} LineInJoin(xs: seq<string>, i: int)
    requires 0 <= i < |xs|
    ensures Contains(JoinLines(xs), xs[i])
  {
    var rest := JoinLines(xs[1..]);
    if i == 0 {
      ContainsMiddle("", xs[0], "\n" + rest);
      assert "" + xs[0] + ("\n" + rest) == JoinLines(xs);
    } else {
      LineInJoin(xs[1..], i - 1);
      ContainsMiddle(xs[0] + "\n", rest, "");
      assert xs[0] + "\n" + rest + "" == JoinLines(xs);
      ContainsTransitive(JoinLines(xs), rest, xs[i]);
    }
  }

  /**
    The shortener's failure costs nothing but the shortening: the entry's
    original URL appears in the message.
   */
  lemma ShortenerFailureKeepsUrl(title: string, m: LinkMap, web: Web, i: int)
    requires 0 <= i < |m| && web.shortener(m[i].href).None?
    ensures Contains(Message(title, m, web), m[i].href)
  {
    MessageCarriesLinks(title, m, web, i);
  }

  /**
    Entries of a classified map always get one of the four role lines: the
    generic line can only be reached by keys the classifier never keeps.
   */
  lemma ClassifiedKeysHaveRoles(links: seq<RawLink>, i: int)
    ensures 0 <= i < |Classify(links)| ==> RoleOf(Classify(links)[i].key) != Unlabelled
  {
  }

  /** Python truthiness of an optional file name: present and non-empty. */
  predicate Truthy(f: Option<string>) {
    f.Some? && f.value != ""
  }

  /** The download for entry `i` succeeded and its key names a job notification. */
  ghost predicate NotificationOk(keys: seq<string>, results: seq<Option<string>>, i: int) {
    0 <= i < |keys| && i < |results| && Truthy(results[i]) && Contains(keys[i], JobNotification)
  }

  /** The download for entry `i` succeeded and its key does not name a job notification. */
  ghost predicate OtherOk(keys: seq<string>, results: seq<Option<string>>, i: int) {
    0 <= i < |keys| && i < |results| && Truthy(results[i]) && !Contains(keys[i], JobNotification)
  }

  /**
    The loop's bookkeeping after the downloads: `job_notification_file`
    (overwritten by each successful notification download) and
    `other_files` (each other successful download, appended in order).
   */
  function Collected(keys: seq<string>, results: seq<Option<string>>): (c: (Option<string>, seq<string>))
    requires |keys| == |results|
    ensures c.0.Some? ==> Truthy(c.0) && c.0 in results
    ensures forall x :: x in c.1 ==> x != "" && Some(x) in results
  {
    if keys == [] then (None, [])
    else
      var n := |keys|;
      var (notification, others) := Collected(keys[..n - 1], results[..n - 1]);
      if Truthy(results[n - 1]) then
        if Contains(keys[n - 1], JobNotification) then (results[n - 1], others)
        else (notification, others + [results[n - 1].value])
      else (notification, others)
  }

  /** `file_to_send`: the notification file if any, else the first other file, else none. */
  function SelectFile(keys: seq<string>, results: seq<Option<string>>): (f: Option<string>)
    requires |keys| == |results|
    ensures f.Some? ==> Truthy(f) && f in results
  {
    var (notification, others) := Collected(keys, results);
    if Truthy(notification) then notification
    else if |others| > 0 then Some(others[0])
    else None
  }

  /** The notification slot holds the last successful notification download, if any. */
  lemma {:induction false} CollectedNotification(keys: seq<string>, results: seq<Option<string>>)
    requires |keys| == |results|
    ensures (forall i :: !NotificationOk(keys, results, i)) ==> Collected(keys, results).0.None?
    ensures forall i :: NotificationOk(keys, results, i) && (forall j :: i < j < |keys| ==> !NotificationOk(keys, results, j)) ==>
      Collected(keys, results).0 == results[i]
  {
    if keys != [] {
      var n := |keys|;
      var ks, rs := keys[..n - 1], results[..n - 1];
      var before := Collected(ks, rs).0;
      var after := Collected(keys, results).0;
      assert after == if NotificationOk(keys, results, n - 1) then results[n - 1] else before;
      assert forall i :: 0 <= i < n - 1 ==> (NotificationOk(ks, rs, i) <==> NotificationOk(keys, results, i)) by {
        assert forall i :: 0 <= i < n - 1 ==> ks[i] == keys[i] && rs[i] == results[i];
      }
      CollectedNotification(ks, rs);
      forall i | NotificationOk(keys, results, i) && (forall j :: i < j < n ==> !NotificationOk(keys, results, j))
        ensures after == results[i]
      {
        if i < n - 1 {
          assert !NotificationOk(keys, results, n - 1);
          assert NotificationOk(ks, rs, i) && (forall j :: i < j < n - 1 ==> !NotificationOk(ks, rs, j));
          assert results[i] == rs[i];
        }
      }
    }
  }

  /** The other-files list is non-empty exactly when some other download succeeded, and starts with the first. */
  lemma {:induction false} CollectedOthers(keys: seq<string>, results: seq<Option<string>>)
    requires |keys| == |results|
    ensures |Collected(keys, results).1| > 0 <==> exists i :: OtherOk(keys, results, i)
    ensures forall i :: OtherOk(keys, results, i) && (forall j :: 0 <= j < i ==> !OtherOk(keys, results, j)) ==>
      Collected(keys, results).1[0] == results[i].value
  {
    if keys != [] {
      var n := |keys|;
      var ks, rs := keys[..n - 1], results[..n - 1];
      var before := Collected(ks, rs).1;
      var after := Collected(keys, results).1;
      assert after == if OtherOk(keys, results, n - 1) then before + [results[n - 1].value] else before;
      assert forall i :: 0 <= i < n - 1 ==> (OtherOk(ks, rs, i) <==> OtherOk(keys, results, i)) by {
        assert forall i :: 0 <= i < n - 1 ==> ks[i] == keys[i] && rs[i] == results[i];
      }
      CollectedOthers(ks, rs);
      assert (exists i :: OtherOk(keys, results, i)) ==> |after| > 0 by {
        if exists i :: OtherOk(keys, results, i) {
          var i :| OtherOk(keys, results, i);
          if i < n - 1 {
            assert OtherOk(ks, rs, i);
          }
        }
      }
      assert |after| > 0 ==> exists i :: OtherOk(keys, results, i) by {
        if |before| > 0 {
          var i :| OtherOk(ks, rs, i);
          assert OtherOk(keys, results, i);
        }
      }
      forall i | OtherOk(keys, results, i) && (forall j :: 0 <= j < i ==> !OtherOk(keys, results, j))
        ensures after[0] == results[i].value
      {
        if i < n - 1 {
          assert OtherOk(ks, rs, i) && forall j :: 0 <= j < i ==> !OtherOk(ks, rs, j);
          assert results[i] == rs[i];
        } else {
          assert forall j :: 0 <= j < n - 1 ==> !OtherOk(ks, rs, j);
          assert |before| == 0;
        }
      }
    }
  }

  /**
    The attachment rule: the message carries the last successfully
    downloaded notification file when there is one; otherwise the first
    other successful download in map order; otherwise nothing. Whatever it
    carries is one of the downloads.
   */
  lemma SelectionRule(keys: seq<string>, results: seq<Option<string>>)
    requires |keys| == |results|
    ensures SelectFile(keys, results).Some? ==> exists i :: 0 <= i < |results| && Truthy(results[i]) && results[i] == SelectFile(keys, results)
    ensures forall i :: NotificationOk(keys, results, i) && (forall j :: i < j < |keys| ==> !NotificationOk(keys, results, j)) ==>
      SelectFile(keys, results) == results[i]
    ensures forall i :: (forall j :: !NotificationOk(keys, results, j)) && OtherOk(keys, results, i) && (forall j :: 0 <= j < i ==> !OtherOk(keys, results, j)) ==>
      SelectFile(keys, results) == results[i]
    ensures (forall i :: 0 <= i < |results| ==> !Truthy(results[i])) ==> SelectFile(keys, results).None?
  {
    CollectedNotification(keys, results);
    CollectedOthers(keys, results);
    var f := SelectFile(keys, results);
    if f.Some? {
      if exists i :: NotificationOk(keys, results, i) {
        var i := LastNotification(keys, results);
        assert f == results[i];
      } else {
        var i := FirstOther(keys, results);
        assert f == results[i];
      }
    }
  }

  /** The last entry whose notification download succeeded. */
  lemma LastNotification(keys: seq<string>, results: seq<Option<string>>) returns (i: int)
    requires exists i :: NotificationOk(keys, results, i)
    ensures NotificationOk(keys, results, i) && forall j :: i < j < |keys| ==> !NotificationOk(keys, results, j)
  {
    i :| NotificationOk(keys, results, i);
    var k := i + 1;
    while k < |keys|
      invariant i < k <= |keys|
      invariant NotificationOk(keys, results, i)
      invariant forall j :: i < j < k ==> !NotificationOk(keys, results, j)
    {
      if NotificationOk(keys, results, k) {
        i := k;
      }
      k := k + 1;
    }
  }

  /** The first entry whose other download succeeded. */
  lemma FirstOther(keys: seq<string>, results: seq<Option<string>>) returns (i: int)
    requires exists i :: OtherOk(keys, results, i)
    ensures OtherOk(keys, results, i) && forall j :: 0 <= j < i ==> !OtherOk(keys, results, j)
  {
    var w :| OtherOk(keys, results, w);
    i := 0;
    while !OtherOk(keys, results, i)
      invariant 0 <= i <= w
      invariant forall j :: 0 <= j < i ==> !OtherOk(keys, results, j)
      decreases w - i
    {
      i := i + 1;
    }
  }

  /** One attachment download, with the URL's path and replies taken from the oracles. */
  function Fetch(web: Web, url: string, disk: Disk): (f: Fetched)
    ensures f.name == Outcome(web, url)
  {
    Download(web.urlPath(url), web.get(url), disk)
  }

  /** The name a download of `url` returns: the name its reply is saved under, when the download succeeds. */
  function Outcome(web: Web, url: string): (o: Option<string>)
    ensures o.Some? ==> o.value != ""
  {
    if Succeeds(web.urlPath(url), web.get(url)) then Target(web.urlPath(url), web.get(url)) else None
  }

  /**
    The downloads of the loop, in map order, threading the working
    directory: each entry's returned name (or `None`), and the directory
    afterwards. Every returned name is the non-empty name its entry's reply
    was saved under.
   */
  function DownloadAll(m: LinkMap, web: Web, disk: Disk): (r: (seq<Option<string>>, Disk))
    ensures |r.0| == |m|
    ensures forall i :: 0 <= i < |m| && r.0[i].Some? ==> r.0[i].value != ""
    // Entry `i` gets a name exactly when its download succeeds, and then the name its reply was saved under.
    ensures forall i :: 0 <= i < |m| ==> r.0[i] == Outcome(web, m[i].href)
  {
    if m == [] then ([], disk)
    else
      var f := Fetch(web, m[0].href, disk);
      var rest := DownloadAll(m[1..], web, f.disk);
      var names := [f.name] + rest.0;
      assert forall i :: 0 <= i < |m| ==> names[i] == Outcome(web, m[i].href) by {
        forall i | 0 < i < |m| ensures names[i] == Outcome(web, m[i].href) {
          assert names[i] == rest.0[i - 1] && m[i] == m[1..][i - 1];
        }
      }
      (names, rest.1)
  }

  /** What goes to the notifier: the text, and the name of the one file to attach, if any. */
  datatype Outgoing = Outgoing(text: string, file: Option<string>)

  /**
    One item's message and attachment, and the working directory after its
    downloads. The attached file, if any, is the name one of the entries
    was saved under, chosen by `SelectionRule`.
   */
  function HandleFiles(title: string, m: LinkMap, web: Web, disk: Disk): (r: (Outgoing, Disk))
    ensures r.0.text == Message(title, m, web)
    ensures r.0.file.Some? ==> exists i :: 0 <= i < |m| && r.0.file == Target(web.urlPath(m[i].href), web.get(m[i].href))
    ensures r.0.file == SelectFile(Keys(m), DownloadAll(m, web, disk).0)
    ensures r.1 == DownloadAll(m, web, disk).1
  {
    var (results, d) := DownloadAll(m, web, disk);
    var file := SelectFile(Keys(m), results);
    SelectionRule(Keys(m), results);
    (Outgoing(Message(title, m, web), file), d)
  }

  /** Entry `i`'s download succeeds and its key names a job notification. */
  ghost predicate NotificationSucceeds(m: LinkMap, web: Web, i: int) {
    0 <= i < |m| && Contains(m[i].key, JobNotification) && Succeeds(web.urlPath(m[i].href), web.get(m[i].href))
  }

  /** Entry `i`'s download succeeds and its key does not name a job notification. */
  ghost predicate OtherSucceeds(m: LinkMap, web: Web, i: int) {
    0 <= i < |m| && !Contains(m[i].key, JobNotification) && Succeeds(web.urlPath(m[i].href), web.get(m[i].href))
  }

  /**
    The attachment in terms of the replies: the file of the last
    notification entry whose download succeeds; without one, the file of the
    first other entry whose download succeeds; without either, no file.
   */
  lemma AttachmentChoice(title: string, m: LinkMap, web: Web, disk: Disk)
    ensures forall i :: NotificationSucceeds(m, web, i) && (forall j :: i < j < |m| ==> !NotificationSucceeds(m, web, j)) ==>
      HandleFiles(title, m, web, disk).0.file == Target(web.urlPath(m[i].href), web.get(m[i].href))
    ensures forall i :: (forall j :: !NotificationSucceeds(m, web, j)) && OtherSucceeds(m, web, i) && (forall j :: 0 <= j < i ==> !OtherSucceeds(m, web, j)) ==>
      HandleFiles(title, m, web, disk).0.file == Target(web.urlPath(m[i].href), web.get(m[i].href))
    ensures (forall i :: 0 <= i < |m| ==> !Succeeds(web.urlPath(m[i].href), web.get(m[i].href))) ==>
      HandleFiles(title, m, web, disk).0.file.None?
  {
    var keys := Keys(m);
    var results := DownloadAll(m, web, disk).0;
    assert forall i :: 0 <= i < |m| ==> (Truthy(results[i]) <==> Succeeds(web.urlPath(m[i].href), web.get(m[i].href)));
    assert forall i :: NotificationOk(keys, results, i) <==> NotificationSucceeds(m, web, i);
    assert forall i :: OtherOk(keys, results, i) <==> OtherSucceeds(m, web, i);
    SelectionRule(keys, results);
  }

  /** The reply of entry `i` is saved under the name `n`. */
  ghost predicate SavedAs(m: LinkMap, web: Web, i: int, n: string) {
    0 <= i < |m| && Target(web.urlPath(m[i].href), web.get(m[i].href)) == Some(n)
  }

  /** No entry from position `lo` on is saved under `n`. */
  ghost predicate Untargeted(m: LinkMap, web: Web, lo: int, n: string) {
    forall j :: lo <= j < |m| ==> !SavedAs(m, web, j, n)
  }

  /** Dropping the first entry shifts the positions of the others by one. */
  lemma UntargetedTail(m: LinkMap, web: Web, lo: int, n: string)
    requires m != [] && 1 <= lo && Untargeted(m, web, lo, n)
    ensures Untargeted(m[1..], web, lo - 1, n)
  {
    forall j | lo - 1 <= j < |m| - 1 ensures !SavedAs(m[1..], web, j, n) {
      assert m[1..][j] == m[j + 1];
      assert !SavedAs(m, web, j + 1, n);
    }
  }

  /** The downloads leave a file that no entry is saved under as it was. */
  lemma {:induction false} DownloadAllFrame(m: LinkMap, web: Web, disk: Disk, n: string)
    requires Untargeted(m, web, 0, n)
    ensures var d := DownloadAll(m, web, disk).1;
      (n in d <==> n in disk) && (n in disk ==> d[n] == disk[n])
  {
    if m != [] {
      var f := Fetch(web, m[0].href, disk);
      assert !SavedAs(m, web, 0, n);
      assert DownloadAll(m, web, disk).1 == DownloadAll(m[1..], web, f.disk).1;
      UntargetedTail(m, web, 1, n);
      DownloadAllFrame(m[1..], web, f.disk, n);
    }
  }

  /** The directory after the downloads, in terms of the first download and the rest. */
  lemma DownloadAllUnfold(m: LinkMap, web: Web, disk: Disk)
    requires m != []
    ensures DownloadAll(m, web, disk).1 == DownloadAll(m[1..], web, Fetch(web, m[0].href, disk).disk).1
  {
  }

  /** What the downloads leave under a name: the last write to it. */
  ghost predicate HoldsLastWrite(d: Disk, n: string, resp: Response) {
    && (n in d <==> resp.streamBreaks || |Written(resp.chunks)| > 0)
    && (n in d ==> d[n] == Written(resp.chunks))
  }

  /**
    The file saved under a name holds the bytes of the LAST entry saved
    under it: that entry's written chunks, or no file at all when its
    stream completed without a non-empty chunk.
   */
  lemma {:induction false} DownloadAllLastWrite(m: LinkMap, web: Web, disk: Disk, i: int, n: string)
    requires SavedAs(m, web, i, n) && Untargeted(m, web, i + 1, n)
    ensures HoldsLastWrite(DownloadAll(m, web, disk).1, n, web.get(m[i].href).response)
  {
    var d1 := Fetch(web, m[0].href, disk).disk;
    DownloadAllUnfold(m, web, disk);
    UntargetedTail(m, web, i + 1, n);
    if i == 0 {
      FirstIsLastWrite(m, web, disk, n);
    } else {
      assert m[1..][i - 1] == m[i];
      DownloadAllLastWrite(m[1..], web, d1, i - 1, n);
    }
  }

  /** The base case: the first entry is the last one saved under `n`. */
  lemma FirstIsLastWrite(m: LinkMap, web: Web, disk: Disk, n: string)
    requires SavedAs(m, web, 0, n) && Untargeted(m[1..], web, 0, n)
    ensures HoldsLastWrite(DownloadAll(m[1..], web, Fetch(web, m[0].href, disk).disk).1, n, web.get(m[0].href).response)
  {
    var d1 := Fetch(web, m[0].href, disk).disk;
    DownloadSaves(web.urlPath(m[0].href), web.get(m[0].href), disk, n);
    DownloadAllFrame(m[1..], web, d1, n);
  }

  /**
    The attached file holds the bytes of the entry it was chosen for,
    unless a later entry was saved under the same name (two links served
    under one file name share one file, and the later download wins).
   */
  lemma AttachedFileContents(title: string, m: LinkMap, web: Web, disk: Disk, i: int)
    requires 0 <= i < |m|
    ensures var (out, d) := HandleFiles(title, m, web, disk);
      out.file.Some? && out.file == Outcome(web, m[i].href) && Untargeted(m, web, i + 1, out.file.value) ==>
        out.file.value in d && d[out.file.value] == Written(web.get(m[i].href).response.chunks)
  {
    var (out, d) := HandleFiles(title, m, web, disk);
    if out.file.Some? && out.file == Outcome(web, m[i].href) && Untargeted(m, web, i + 1, out.file.value) {
      assert SavedAs(m, web, i, out.file.value);
      DownloadAllLastWrite(m, web, disk, i, out.file.value);
    }
  }
}

=== FILE: labels.dfy ===
/**
  Link-role classification from `scrape_selected_url`: each link found in a
  details block comes with the text of the bold label before it; the label
  is stripped of colons and the link is kept, under that label, when the
  label mentions one of four keywords. Kept links live in an
  insertion-ordered map, as a Python `dict` does.
 */
module Labels {
  import opened Wrappers
  import opened Strings

  const JobAdvertisement := "Job Advertisement"
  const OfficialWebsite := "Official website"
  const ApplyOnline := "Apply Online"
  const JobNotification := "Job Notification"

  /**
    The label mentions one of the four keywords, tested in the order the
    scraper lists them (substring containment, not equality).
   */
  predicate IsJobLabel(text: string) {
    || Contains(text, JobAdvertisement)
    || Contains(text, OfficialWebsite)
    || Contains(text, ApplyOnline)
    || Contains(text, JobNotification)
  }

  /** The role a label plays in the outgoing message. */
  datatype Role = Advertisement | Notification | Website | Application | Unlabelled

  /**
    The role of a label, by the first keyword it mentions in the order the
    message composer tests them: advertisement, notification, official
    website, apply online. A label has a role exactly when the classifier
    keeps it, so kept links never fall through to the generic line.
   */
  function RoleOf(key: string): (r: Role)
    ensures r != Unlabelled <==> IsJobLabel(key)
    ensures r == Advertisement <==> Contains(key, JobAdvertisement)
    ensures r == Notification <==> Contains(key, JobNotification) && !Contains(key, JobAdvertisement)
    ensures r == Website <==> Contains(key, OfficialWebsite) && !Contains(key, JobAdvertisement) && !Contains(key, JobNotification)
    ensures r == Application <==>
      Contains(key, ApplyOnline) && !Contains(key, JobAdvertisement) && !Contains(key, JobNotification) && !Contains(key, OfficialWebsite)
  {
    if Contains(key, JobAdvertisement) then Advertisement
    else if Contains(key, JobNotification) then Notification
    else if Contains(key, OfficialWebsite) then Website
    else if Contains(key, ApplyOnline) then Application
    else Unlabelled
  }

  /** The key a link is filed under: the bold text with leading and trailing colons removed. */
  function Label(text: string): string {
    Strip(text, ':')
  }

  /** A link as found on the page: the preceding bold label's text, and the `href`. */
  datatype RawLink = RawLink(text: string, href: string)

  /** One kept link. */
  datatype Entry = Entry(key: string, href: string)

  /** An insertion-ordered map from key to link target. */
  type LinkMap = seq<Entry>

  /** The keys of a map, in map order. */
  function Keys(m: LinkMap): seq<string> {
    seq(|m|, i requires 0 <= i < |m| => m[i].key)
  }

  /** No key occurs twice. */
  predicate UniqueKeys(m: LinkMap) {
    forall i, j :: 0 <= i < j < |m| ==> m[i].key != m[j].key
  }

  /** The position of key `k` in `m`, or -1 when `m` has no such key. */
  function IndexOf(m: LinkMap, k: string): (i: int)
    ensures -1 <= i < |m|
    ensures 0 <= i ==> m[i].key == k
    ensures forall j :: 0 <= j < |m| && (i < 0 || j < i) ==> m[j].key != k
  {
    if m == [] then -1
    else if m[0].key == k then 0
    else
      var i := IndexOf(m[1..], k);
      if i < 0 then -1 else i + 1
  }

  /** In a map without repeated keys, the entry holding a key is the one `IndexOf` finds. */
  lemma IndexOfUnique(m: LinkMap, k: string, j: int)
    requires UniqueKeys(m)
    requires 0 <= j < |m| && m[j].key == k
    ensures IndexOf(m, k) == j
  {
  }

  /** `m.get(k)`. */
  function Lookup(m: LinkMap, k: string): (r: Option<string>)
    ensures r.Some? <==> k in Keys(m)
  {
    var i := IndexOf(m, k);
    if i < 0 then None
    else
      assert Keys(m)[i] == k;
      Some(m[i].href)
  }

  /**
    `m[k] = v` on a dict: an existing key keeps its position and gets the
    new value; a new key is appended at the end. Nothing else changes.
   */
  function Put(m: LinkMap, k: string, v: string): (r: LinkMap)
    requires UniqueKeys(m)
    ensures UniqueKeys(r)
    ensures Lookup(r, k) == Some(v)
    ensures forall k' :: k' != k ==> Lookup(r, k') == Lookup(m, k')
    ensures k in Keys(m) ==> Keys(r) == Keys(m)
    ensures k !in Keys(m) ==> Keys(r) == Keys(m) + [k]
  {
    var i := IndexOf(m, k);
    var r := if i < 0 then m + [Entry(k, v)] else m[i := Entry(k, v)];
    assert 0 <= i ==> Keys(m)[i] == k;
    assert i < 0 ==> Keys(r) == Keys(m) + [k];
    assert UniqueKeys(r);
    IndexOfUnique(r, k, if i < 0 then |m| else i);
    forall k' | k' != k ensures Lookup(r, k') == Lookup(m, k') {
      var j := IndexOf(m, k');
      if 0 <= j {
        assert r[j] == m[j];
        IndexOfUnique(r, k', j);
      } else {
        assert forall j' :: 0 <= j' < |r| ==> r[j'].key != k';
      }
    }
    r
  }

  /**
    The dict-building loop of `scrape_selected_url`: each raw link in page
    order is filed under `keyOf(text)` when `keep` accepts that key,
    overwriting any earlier link filed under the same key. The label
    cleaning and the keyword test are parameters, instantiated by
    `Classify`.
   */
  function Collect(links: seq<RawLink>, keyOf: string -> string, keep: string -> bool): (m: LinkMap)
    ensures UniqueKeys(m)
  {
    if links == [] then []
    else
      var m := Collect(links[..|links| - 1], keyOf, keep);
      var last := links[|links| - 1];
      var key := keyOf(last.text);
      if keep(key) then Put(m, key, last.href) else m
  }

  /** Every key of the collected map passed `keep`. */
  lemma {:induction false} CollectKeysKept(links: seq<RawLink>, keyOf: string -> string, keep: string -> bool)
    ensures forall i :: 0 <= i < |Collect(links, keyOf, keep)| ==> keep(Collect(links, keyOf, keep)[i].key)
  {
    if links != [] {
      var m := Collect(links[..|links| - 1], keyOf, keep);
      var r := Collect(links, keyOf, keep);
      CollectKeysKept(links[..|links| - 1], keyOf, keep);
      assert forall i :: 0 <= i < |r| ==> Keys(r)[i] == r[i].key;
      assert forall i :: 0 <= i < |m| ==> Keys(m)[i] == m[i].key;
    }
  }

  /** `job_details` after the scraping loop: links filed under their colon-stripped label, when it mentions a keyword. */
  function Classify(links: seq<RawLink>): (m: LinkMap)
    ensures UniqueKeys(m)
    ensures forall i :: 0 <= i < |m| ==> IsJobLabel(m[i].key)
  {
    CollectKeysKept(links, Label, IsJobLabel);
    Collect(links, Label, IsJobLabel)
  }

  /** Link `i` is filed under key `k`. */
  ghost predicate Filed(links: seq<RawLink>, keyOf: string -> string, keep: string -> bool, i: int, k: string) {
    0 <= i < |links| && keyOf(links[i].text) == k && keep(k)
  }

  /** Link `i` is kept under key `k` by the classifier. */
  ghost predicate Kept(links: seq<RawLink>, i: int, k: string) {
    0 <= i < |links| && Label(links[i].text) == k && IsJobLabel(k)
  }

  /** One more link either files itself under `k` or leaves the value under `k` as it was. */
  lemma CollectStep(links: seq<RawLink>, keyOf: string -> string, keep: string -> bool, k: string)
    requires links != []
    ensures Lookup(Collect(links, keyOf, keep), k) ==
      if Filed(links, keyOf, keep, |links| - 1, k) then Some(links[|links| - 1].href)
      else Lookup(Collect(links[..|links| - 1], keyOf, keep), k)
  {
  }

  /** Dropping the last link files the other links as before. */
  lemma FiledPrefix(links: seq<RawLink>, keyOf: string -> string, keep: string -> bool, k: string)
    requires links != []
    ensures forall i :: 0 <= i < |links| - 1 ==>
      (Filed(links[..|links| - 1], keyOf, keep, i, k) <==> Filed(links, keyOf, keep, i, k))
  {
    assert forall i :: 0 <= i < |links| - 1 ==> links[..|links| - 1][i] == links[i];
  }

  /** A key is in the collected map exactly when some link is filed under it. */
  lemma {:induction false} CollectMembership(links: seq<RawLink>, keyOf: string -> string, keep: string -> bool, k: string)
    ensures Lookup(Collect(links, keyOf, keep), k).Some? <==> exists i :: Filed(links, keyOf, keep, i, k)
  {
    if links != [] {
      var n := |links|;
      var prefix := links[..n - 1];
      CollectStep(links, keyOf, keep, k);
      if !Filed(links, keyOf, keep, n - 1, k) {
        FiledPrefix(links, keyOf, keep, k);
        CollectMembership(prefix, keyOf, keep, k);
        if exists i :: Filed(prefix, keyOf, keep, i, k) {
          var i :| Filed(prefix, keyOf, keep, i, k);
          assert Filed(links, keyOf, keep, i, k);
        }
        if exists i :: Filed(links, keyOf, keep, i, k) {
          var i :| Filed(links, keyOf, keep, i, k);
          assert Filed(prefix, keyOf, keep, i, k);
        }
      }
    }
  }

  /** Link `i` is the last link filed under `k`. */
  ghost predicate LastFiled(links: seq<RawLink>, keyOf: string -> string, keep: string -> bool, i: int, k: string) {
    Filed(links, keyOf, keep, i, k) && forall j :: i < j < |links| ==> !Filed(links, keyOf, keep, j, k)
  }

  /** A key in the collected map maps to the target of the last link filed under it. */
  lemma {:induction false} CollectLast(links: seq<RawLink>, keyOf: string -> string, keep: string -> bool, k: string)
    ensures Lookup(Collect(links, keyOf, keep), k).Some? ==>
      exists i :: LastFiled(links, keyOf, keep, i, k) && links[i].href == Lookup(Collect(links, keyOf, keep), k).value
  {
    if links != [] {
      var n := |links|;
      var prefix := links[..n - 1];
      var v := Lookup(Collect(links, keyOf, keep), k);
      CollectStep(links, keyOf, keep, k);
      if Filed(links, keyOf, keep, n - 1, k) {
        assert LastFiled(links, keyOf, keep, n - 1, k);
      } else if v.Some? {
        FiledPrefix(links, keyOf, keep, k);
        CollectLast(prefix, keyOf, keep, k);
        var i :| LastFiled(prefix, keyOf, keep, i, k) && prefix[i].href == v.value;
        assert LastFiled(links, keyOf, keep, i, k) && links[i].href == v.value;
      }
    }
  }

  /** A key is in the collected map exactly when some link is filed under it, and maps to the last such link. */
  lemma CollectContents(links: seq<RawLink>, keyOf: string -> string, keep: string -> bool, k: string)
    ensures Lookup(Collect(links, keyOf, keep), k).Some? <==> exists i :: Filed(links, keyOf, keep, i, k)
    ensures Lookup(Collect(links, keyOf, keep), k).Some? ==>
      exists i :: Filed(links, keyOf, keep, i, k) && links[i].href == Lookup(Collect(links, keyOf, keep), k).value
        && forall j :: i < j < |links| ==> !Filed(links, keyOf, keep, j, k)
  {
    CollectMembership(links, keyOf, keep, k);
    CollectLast(links, keyOf, keep, k);
  }

  /**
    What the classified map holds: a key exactly when some link's
    colon-stripped label equals it and mentions a keyword, and for it the
    target of the LAST such link.
   */
  lemma ClassifyContents(links: seq<RawLink>, k: string)
    ensures Lookup(Classify(links), k).Some? <==> exists i :: Kept(links, i, k)
    ensures Lookup(Classify(links), k).Some? ==>
      exists i :: Kept(links, i, k) && links[i].href == Lookup(Classify(links), k).value
        && forall j :: i < j < |links| ==> !Kept(links, j, k)
  {
    CollectContents(links, Label, IsJobLabel, k);
    assert forall i :: Kept(links, i, k) <==> Filed(links, Label, IsJobLabel, i, k);
  }

  /** A key, once in the map, never moves: the map built from a prefix of the links is a prefix of the final one. */
  lemma {:induction false} CollectKeepsPositions(links: seq<RawLink>, keyOf: string -> string, keep: string -> bool, n: nat)
    requires n <= |links|
    ensures Keys(Collect(links[..n], keyOf, keep)) <= Keys(Collect(links, keyOf, keep))
  {
    if n < |links| {
      var prefix := links[..|links| - 1];
      assert prefix[..n] == links[..n];
      CollectKeepsPositions(prefix, keyOf, keep, n);
    } else {
      assert links[..n] == links;
    }
  }

  /**
    Keys appear in the order of their first kept link: every link kept
    under a later key is preceded by a link kept under each earlier key.
   */
  lemma CollectFirstOccurrenceOrder(links: seq<RawLink>, keyOf: string -> string, keep: string -> bool, a: nat, b: nat, j: int)
    requires a < b < |Collect(links, keyOf, keep)|
    requires Filed(links, keyOf, keep, j, Collect(links, keyOf, keep)[b].key)
    ensures exists i :: i < j && Filed(links, keyOf, keep, i, Collect(links, keyOf, keep)[a].key)
  {
    var m := Collect(links, keyOf, keep);
    var kb := m[b].key;
    var ka := m[a].key;
    // Compare the maps built from the links before `j` and up to `j`.
    var before := Collect(links[..j], keyOf, keep);
    var upto := Collect(links[..j + 1], keyOf, keep);
    CollectKeepsPositions(links, keyOf, keep, j);
    CollectKeepsPositions(links, keyOf, keep, j + 1);
    assert links[..j + 1][..j] == links[..j];
    assert links[..j + 1][j] == links[j];
    // After link `j`, `kb` is in the map, so its position `b` lies within `upto`.
    assert kb in Keys(upto);
    var pb :| 0 <= pb < |upto| && Keys(upto)[pb] == kb;
    assert Keys(upto)[pb] == Keys(m)[pb];
    assert pb == b;
    // `upto` adds at most one key to `before`, so `a < b` lies within `before`.
    assert a < |before|;
    assert Keys(before)[a] == Keys(m)[a] == ka;
    CollectContents(links[..j], keyOf, keep, ka);
    var i :| Filed(links[..j], keyOf, keep, i, ka);
    assert links[..j][i] == links[i];
    assert i < j && Filed(links, keyOf, keep, i, ka);
  }

  /** The classified map lists its keys in the order their labels first appear among the kept links. */
  lemma ClassifyFirstOccurrenceOrder(links: seq<RawLink>, a: nat, b: nat, j: int)
    ensures a < b < |Classify(links)| && Kept(links, j, Classify(links)[b].key) ==>
      exists i :: i < j && Kept(links, i, Classify(links)[a].key)
  {
    if a < b < |Classify(links)| && Kept(links, j, Classify(links)[b].key) {
      assert Filed(links, Label, IsJobLabel, j, Classify(links)[b].key);
      CollectFirstOccurrenceOrder(links, Label, IsJobLabel, a, b, j);
      var i :| i < j && Filed(links, Label, IsJobLabel, i, Classify(links)[a].key);
      assert Kept(links, i, Classify(links)[a].key);
    }
  }
}

=== FILE: paths.dfy ===
/**
  POSIX path operations (Python's `posixpath`) applied to the path part of an
  attachment URL: `basename` gives the download's file name and `splitext`
  its fallback extension.
 */
module Paths {
  import opened Strings

  /**
    `os.path.basename(p)`: everything after the last `/`. The result is a
    suffix of `p` holding no `/`, and it is either all of `p` or preceded by
    a `/`.
   */
  function Basename(p: string): (r: string)
    ensures |r| <= |p| && r == p[|p| - |r|..]
    ensures forall j :: 0 <= j < |r| ==> r[j] != '/'
    ensures |r| == |p| || p[|p| - |r| - 1] == '/'
  {
    p[RFind(p, '/') + 1..]
  }

  /** Some character of `p[lo..hi]` is not a dot. */
  predicate HasNonDot(p: string, lo: int, hi: int)
    requires 0 <= lo && hi <= |p|
  {
    exists j :: lo <= j < hi && p[j] != '.'
  }

  /**
    `os.path.splitext(p)`: the extension starts at the last dot, provided that
    dot lies in the final path component and that component has some
    character other than a dot before it (so `.bashrc` and `..` have no
    extension). The pieces always reassemble into `p`; a non-empty extension
    is one dot followed by neither dots nor slashes.
   */
  function SplitExt(p: string): (r: (string, string))
    ensures r.0 + r.1 == p
    ensures r.1 == "" || (r.1[0] == '.' && forall j :: 1 <= j < |r.1| ==> r.1[j] != '.' && r.1[j] != '/')
  {
    var sep := RFind(p, '/');
    var dot := RFind(p, '.');
    if dot > sep && HasNonDot(p, sep + 1, dot) then (p[..dot], p[dot..]) else (p, "")
  }

  /**
    An independent description of where an extension can start: at a dot in
    `p` after which there is no dot and no slash, and before which, within
    the same path component, there is a character that is not a dot.
   */
  ghost predicate ExtensionAt(p: string, k: int) {
    && 0 <= k < |p|
    && p[k] == '.'
    && (forall j :: k < j < |p| ==> p[j] != '.' && p[j] != '/')
    && (exists j :: 0 <= j < k && p[j] != '.' && p[j] != '/' && forall m :: j < m < k ==> p[m] != '/')
  }

  /** `SplitExt` finds an extension exactly when one can start somewhere, and then splits there. */
  lemma SplitExtMatchesDescription(p: string)
    ensures SplitExt(p).1 != "" <==> exists k :: ExtensionAt(p, k)
    ensures forall k :: ExtensionAt(p, k) ==> SplitExt(p).1 == p[k..]
  {
    var sep := RFind(p, '/');
    var dot := RFind(p, '.');
    if SplitExt(p).1 != "" {
      var j :| sep + 1 <= j < dot && p[j] != '.';
      assert ExtensionAt(p, dot);
    }
    forall k | ExtensionAt(p, k) ensures SplitExt(p).1 == p[k..] {
      assert dot == k;
      assert sep < k;
      var j :| 0 <= j < k && p[j] != '.' && p[j] != '/' && forall m :: j < m < k ==> p[m] != '/';
      assert HasNonDot(p, sep + 1, dot);
    }
  }
}

=== FILE: pipeline.dfy ===
/**
  The run of the scraper over the discovered job pages: filtering out pages
  already recorded in the store, scraping each remaining page, composing and
  sending its message, and recording the page once the send has returned.

  The page extraction, the outside web services and the notifier are
  oracles; the store is the sequence of records inserted so far.
 */
module Pipeline {
  import opened Wrappers
  import opened Attachment
  import opened Labels
  import opened Compose

  /**
    What scraping one page gives: an exception that escapes the run (the
    page GET failing, a link with no bold label before it, a kept link with
    no `href` attribute), a page without a job title, or the stripped title
    and the links found in its detail blocks, each with its label text.
   */
  datatype Page = Raises | Untitled | Page(title: string, links: seq<RawLink>)

  /**
    A file handed to the bot: the name it was opened under, which the bot
    uses as the document's file name in the channel, and its bytes.
   */
  datatype Document = Document(name: string, bytes: Bytes)

  /**
    The outside world of one run: the page extraction, the services item
    processing calls, and the notifier, which answers whether the message
    (with the attached document, if any) went out.
   */
  datatype World = World(page: string -> Page, web: Web, send: (string, Option<Document>) -> bool)

  /** One stored document: the page URL and its title (the insertion time is left out). */
  datatype Record = Record(url: string, title: string)

  /** One message that went out, for the page `url` titled `title`. */
  datatype Delivery = Delivery(url: string, title: string, text: string, attachment: Option<Document>)

  /**
    The state threaded through a run: the store's records in insertion
    order, the working directory, the messages sent so far, and whether an
    exception has ended the run.
   */
  datatype State = State(store: seq<Record>, disk: Disk, sent: seq<Delivery>, halted: bool)

  /** `is_url_scraped`: the store holds a record for `url`. */
  predicate Scraped(store: seq<Record>, url: string) {
    exists i :: 0 <= i < |store| && store[i].url == url
  }

  /** `get_unscraped_urls`: the discovered URLs that the store does not hold, in discovery order. */
  function Unscraped(urls: seq<string>, store: seq<Record>): (r: seq<string>)
    ensures forall u :: u in r <==> u in urls && !Scraped(store, u)
    ensures |r| <= |urls|
  {
    if urls == [] then []
    else
      var rest := Unscraped(urls[1..], store);
      assert forall u :: u in urls <==> u == urls[0] || u in urls[1..];
      (if Scraped(store, urls[0]) then [] else [urls[0]]) + rest
  }

  /** The filter works element by element: it distributes over concatenation, so it keeps discovery order. */
  lemma {:induction false} UnscrapedAppend(a: seq<string>, b: seq<string>, store: seq<Record>)
    ensures Unscraped(a + b, store) == Unscraped(a, store) + Unscraped(b, store)
  {
    if a != [] {
      assert (a + b)[1..] == a[1..] + b;
      UnscrapedAppend(a[1..], b, store);
    } else {
      assert a + b == b;
    }
  }

  /** On one URL the filter keeps it exactly when the store lacks it. */
  lemma UnscrapedSingle(u: string, store: seq<Record>)
    ensures Unscraped([u], store) == if Scraped(store, u) then [] else [u]
  {
    assert [u][1..] == [];
  }

  /**
    `send_to_telegram`: with a file, the file is opened from the working
    directory (a missing file raises) and sent with the message as caption;
    otherwise the message is sent alone. The notifier's answer says whether
    the send returned.
   */
  function Notify(world: World, out: Outgoing, disk: Disk): (ok: bool)
    ensures out.file.None? ==> ok == world.send(out.text, None)
    ensures out.file.Some? && out.file.value !in disk ==> !ok
    ensures out.file.Some? && out.file.value in disk ==>
      ok == world.send(out.text, Some(Document(out.file.value, disk[out.file.value])))
  {
    match out.file
    case None => world.send(out.text, None)
    case Some(f) => f in disk && world.send(out.text, Some(Document(f, disk[f])))
  }

  /** The document a send carries: the chosen file under its own name, with its bytes in the directory. */
  function Attached(out: Outgoing, disk: Disk): (d: Option<Document>)
    requires out.file.Some? ==> out.file.value in disk
    ensures d.Some? <==> out.file.Some?
    ensures d.Some? ==> d.value.name == out.file.value && d.value.bytes == disk[out.file.value]
  {
    match out.file
    case None => None
    case Some(f) => Some(Document(f, disk[f]))
  }

  /**
    The part of `scrape_and_send` after a titled scrape: compose the message
    and download the attachments, then send. If the send raises the run
    ends; if it returns, the delivery is logged and the page recorded.
   */
  function Deliver(world: World, url: string, title: string, links: seq<RawLink>, s: State): (r: State)
    ensures r.store == s.store + [Record(url, title)] || r.store == s.store
    ensures r.store != s.store ==>
      && |r.sent| == |s.sent| + 1 && r.sent[..|s.sent|] == s.sent
      && r.sent[|s.sent|].url == url && r.sent[|s.sent|].title == title
      && r.sent[|s.sent|].text == Message(title, Classify(links), world.web)
      && r.halted == s.halted
    ensures r.store == s.store ==> r.sent == s.sent && r.halted
    // The page is recorded exactly when the notifier accepts the message and its attachment.
    ensures var (out, disk) := HandleFiles(title, Classify(links), world.web, s.disk);
      && r.disk == disk
      && (r.store != s.store <==> Notify(world, out, disk))
      && (Notify(world, out, disk) ==>
            && |r.sent| == |s.sent| + 1
            && r.sent[|s.sent|].attachment == Attached(out, disk))
    // Every logged delivery is what the notifier accepted.
    ensures r.store != s.store ==> world.send(r.sent[|s.sent|].text, r.sent[|s.sent|].attachment)
  {
    var (out, disk) := HandleFiles(title, Classify(links), world.web, s.disk);
    if Notify(world, out, disk) then
      State(s.store + [Record(url, title)], disk, s.sent + [Delivery(url, title, out.text, Attached(out, disk))], s.halted)
    else s.(disk := disk, halted := true)
  }

  /**
    `scrape_and_send(url)`. A URL the store already holds is skipped. A page
    whose scrape raises ends the run; one without a (non-empty) title is
    skipped. Otherwise its message goes out through `Deliver`.
   */
  function ScrapeAndSend(world: World, url: string, s: State): (r: State)
    // Each URL is checked against the store before anything is done with it.
    ensures Scraped(s.store, url) ==> r == s
    // A page without a title changes nothing.
    ensures world.page(url).Untitled? || (world.page(url).Page? && world.page(url).title == "") ==> r == s
    // Nothing is recorded without a delivery, and every delivery is recorded.
    ensures r.sent == s.sent <==> r.store == s.store
    ensures r.store != s.store ==>
      && !Scraped(s.store, url)
      && world.page(url).Page? && world.page(url).title != ""
      && r.store == s.store + [Record(url, world.page(url).title)]
      && |r.sent| == |s.sent| + 1 && r.sent[..|s.sent|] == s.sent
      && r.sent[|s.sent|].url == url && r.sent[|s.sent|].title == world.page(url).title
      && r.sent[|s.sent|].text == Message(world.page(url).title, Classify(world.page(url).links), world.web)
    // A run ends only on an exception: the page raising, or the send failing; either way nothing is recorded.
    ensures r.halted && !s.halted ==> r.store == s.store && !Scraped(s.store, url) && !world.page(url).Untitled?
    ensures !Scraped(s.store, url) && world.page(url).Raises? ==> r.halted && r.store == s.store && r.sent == s.sent
    // A titled page is recorded exactly when the notifier accepts its message, and the log holds what was accepted.
    ensures !Scraped(s.store, url) && world.page(url).Page? && world.page(url).title != "" ==>
      var (out, disk) := HandleFiles(world.page(url).title, Classify(world.page(url).links), world.web, s.disk);
      && (r.store != s.store <==> Notify(world, out, disk))
      && (Notify(world, out, disk) ==>
            && |r.sent| == |s.sent| + 1
            && r.sent[|s.sent|].attachment == Attached(out, disk))
    ensures r.store != s.store ==> world.send(r.sent[|s.sent|].text, r.sent[|s.sent|].attachment)
  {
    if Scraped(s.store, url) then s
    else
      match world.page(url)
      case Raises => s.(halted := true)
      case Untitled => s
      case Page(title, links) =>
        if title == "" then s else Deliver(world, url, title, links, s)
  }

  /** The loop of `main`: each URL in turn, until an exception ends the run. */
  function Run(world: World, urls: seq<string>, s: State): (r: State)
    ensures s.halted ==> r == s
    ensures |s.sent| <= |r.sent| && |s.store| <= |r.store|
  {
    if urls == [] || s.halted then s
    else Run(world, urls[1..], ScrapeAndSend(world, urls[0], s))
  }

  /** `main`: the discovered URLs the store lacks at the start, processed in order. */
  function Main(world: World, discovered: seq<string>, s: State): (r: State)
    ensures s.halted ==> r == s
    // When every discovered page is already recorded there is nothing to do.
    ensures (forall u :: u in discovered ==> Scraped(s.store, u)) ==> r == s
  {
    var todo := Unscraped(discovered, s.store);
    assert (forall u :: u in discovered ==> Scraped(s.store, u)) ==> todo == [] by {
      if todo != [] {
        assert todo[0] in todo;
      }
    }
    Run(world, todo, s)
  }

  /** The records that a sequence of deliveries leaves in the store, in order. */
  function Ledger(ds: seq<Delivery>): (rs: seq<Record>)
    ensures |rs| == |ds|
  {
    seq(|ds|, i requires 0 <= i < |ds| => Record(ds[i].url, ds[i].title))
  }

  /** The records of consecutive runs of deliveries follow each other. */
  lemma LedgerAppend(a: seq<Delivery>, b: seq<Delivery>)
    ensures Ledger(a + b) == Ledger(a) + Ledger(b)
  {
    assert forall i :: 0 <= i < |a| + |b| ==> Ledger(a + b)[i] == (Ledger(a) + Ledger(b))[i];
  }

  /** The store grew by one record per delivery since `sent` had length `n`. */
  ghost predicate Grew(store0: seq<Record>, sent0: seq<Delivery>, store: seq<Record>, sent: seq<Delivery>) {
    |sent0| <= |sent| && sent[..|sent0|] == sent0 && store == store0 + Ledger(sent[|sent0|..])
  }

  /** Growth composes: two growth steps in a row are one. */
  lemma GrewTwice(st0: seq<Record>, d0: seq<Delivery>, st1: seq<Record>, d1: seq<Delivery>, st2: seq<Record>, d2: seq<Delivery>)
    requires Grew(st0, d0, st1, d1) && Grew(st1, d1, st2, d2)
    ensures Grew(st0, d0, st2, d2)
  {
    assert d2[..|d0|] == d1[..|d0|];
    assert d2[|d0|..] == d1[|d0|..] + d2[|d1|..];
    LedgerAppend(d1[|d0|..], d2[|d1|..]);
  }

  /** A store and log that either stay as they are or gain one delivery for `u` and its record. */
  ghost predicate OneStep(store0: seq<Record>, sent0: seq<Delivery>, store1: seq<Record>, sent1: seq<Delivery>, u: string) {
    || (store1 == store0 && sent1 == sent0)
    || (&& !Scraped(store0, u)
        && |sent1| == |sent0| + 1 && sent1[..|sent0|] == sent0 && sent1[|sent0|].url == u
        && store1 == store0 + [Record(u, sent1[|sent0|].title)])
  }

  /** One step of the run has the shape `OneStep` describes. */
  lemma StepShape(world: World, u: string, s: State)
    ensures var s1 := ScrapeAndSend(world, u, s); OneStep(s.store, s.sent, s1.store, s1.sent, u)
  {
  }

  /** In a step of that shape the store grows by the step's deliveries and loses no record. */
  lemma OneStepGrows(store0: seq<Record>, sent0: seq<Delivery>, store1: seq<Record>, sent1: seq<Delivery>, u: string)
    requires OneStep(store0, sent0, store1, sent1, u)
    ensures Grew(store0, sent0, store1, sent1)
    ensures sent1 == sent0 || (|sent1| == |sent0| + 1 && sent1[|sent0|].url == u && !Scraped(store0, u) && Scraped(store1, u))
    ensures forall x :: Scraped(store0, x) ==> Scraped(store1, x)
  {
    if sent1 == sent0 {
      assert sent1[|sent0|..] == [];
    } else {
      assert sent1[|sent0|..] == [sent1[|sent0|]];
      assert store1[|store0|].url == u;
    }
    forall x | Scraped(store0, x) ensures Scraped(store1, x) {
      var k :| 0 <= k < |store0| && store0[k].url == x;
      assert store1[k] == store0[k];
    }
  }

  /**
    One step of the run in the terms the run lemmas need: the store grows by
    the step's deliveries, which are at most one, for the URL processed,
    which the store lacked before and holds after.
   */
  lemma StepGrows(world: World, u: string, s: State)
    ensures var s1 := ScrapeAndSend(world, u, s);
      && Grew(s.store, s.sent, s1.store, s1.sent)
      && (s1.sent == s.sent || (|s1.sent| == |s.sent| + 1 && s1.sent[|s.sent|].url == u && !Scraped(s.store, u) && Scraped(s1.store, u)))
      && (forall x :: Scraped(s.store, x) ==> Scraped(s1.store, x))
  {
    var s1 := ScrapeAndSend(world, u, s);
    StepShape(world, u, s);
    OneStepGrows(s.store, s.sent, s1.store, s1.sent, u);
  }

  /**
    The store after a run is the store before it followed by exactly one
    record per message the run sent, in sending order, and the messages sent
    before the run are kept.
   */
  lemma {:induction false} RunLedger(world: World, urls: seq<string>, s: State)
    ensures Grew(s.store, s.sent, Run(world, urls, s).store, Run(world, urls, s).sent)
  {
    if urls == [] || s.halted {
      assert s.sent[|s.sent|..] == [];
      assert s.sent[..|s.sent|] == s.sent;
    } else {
      var s1 := ScrapeAndSend(world, urls[0], s);
      StepGrows(world, urls[0], s);
      RunLedger(world, urls[1..], s1);
      var r := Run(world, urls[1..], s1);
      GrewTwice(s.store, s.sent, s1.store, s1.sent, r.store, r.sent);
    }
  }

  /** A record once in the store stays there. */
  lemma RunKeepsRecords(world: World, urls: seq<string>, s: State, u: string)
    requires Scraped(s.store, u)
    ensures Scraped(Run(world, urls, s).store, u)
  {
    RunLedger(world, urls, s);
    var i :| 0 <= i < |s.store| && s.store[i].url == u;
    assert Run(world, urls, s).store[i] == s.store[i];
  }

  /**
    The messages in `sent` after position `n` are for distinct URLs from
    `urls`, none of which `store` holds.
   */
  ghost predicate SentOnce(store: seq<Record>, n: int, sent: seq<Delivery>, urls: seq<string>) {
    && 0 <= n <= |sent|
    && (forall i :: n <= i < |sent| ==> !Scraped(store, sent[i].url) && sent[i].url in urls)
    && (forall i, j :: n <= i < j < |sent| ==> sent[i].url != sent[j].url)
  }

  /**
    A step that sends at most one message, for a URL `u` the store lacks and
    then holds, followed by messages sent once over the rest of the list,
    sends once over the whole list.
   */
  lemma SentOnceStep(store0: seq<Record>, sent0: seq<Delivery>, store1: seq<Record>, sent1: seq<Delivery>,
                     sent2: seq<Delivery>, u: string, rest: seq<string>)
    requires |sent0| <= |sent1| <= |sent2| && sent2[..|sent1|] == sent1 && sent1[..|sent0|] == sent0
    requires sent1 == sent0 || (|sent1| == |sent0| + 1 && sent1[|sent0|].url == u && !Scraped(store0, u) && Scraped(store1, u))
    requires forall x :: Scraped(store0, x) ==> Scraped(store1, x)
    requires SentOnce(store1, |sent1|, sent2, rest)
    ensures SentOnce(store0, |sent0|, sent2, [u] + rest)
  {
    forall i | |sent0| <= i < |sent2| ensures !Scraped(store0, sent2[i].url) && sent2[i].url in [u] + rest {
      if i < |sent1| {
        assert sent2[i] == sent1[i];
      }
    }
    forall i, j | |sent0| <= i < j < |sent2| ensures sent2[i].url != sent2[j].url {
      if i < |sent1| {
        assert sent2[i] == sent1[i];
      }
    }
  }

  /**
    Within one run every page is sent at most once, even when the list
    names it twice, and never one the store held at the start.
   */
  lemma {:induction false} RunSendsOnce(world: World, urls: seq<string>, s: State)
    ensures SentOnce(s.store, |s.sent|, Run(world, urls, s).sent, urls)
  {
    if urls == [] || s.halted {
      assert Run(world, urls, s) == s;
    } else {
      var s1 := ScrapeAndSend(world, urls[0], s);
      StepGrows(world, urls[0], s);
      RunSendsOnce(world, urls[1..], s1);
      RunLedger(world, urls[1..], s1);
      var r := Run(world, urls[1..], s1);
      assert [urls[0]] + urls[1..] == urls;
      SentOnceStep(s.store, s.sent, s1.store, s1.sent, r.sent, urls[0], urls[1..]);
    }
  }

  /**
    Pages that need no more work under the store: they are recorded, or
    their scrape finds no title (scraping them again changes nothing).
   */
  ghost predicate Settled(world: World, store: seq<Record>, u: string) {
    Scraped(store, u) || world.page(u).Untitled? || (world.page(u).Page? && world.page(u).title == "")
  }

  /** A run that does not end early settles every URL it was given. */
  lemma {:induction false} RunSettles(world: World, urls: seq<string>, s: State)
    ensures !Run(world, urls, s).halted ==> forall u :: u in urls ==> Settled(world, Run(world, urls, s).store, u)
  {
    if urls != [] && !Run(world, urls, s).halted {
      var s1 := ScrapeAndSend(world, urls[0], s);
      var r := Run(world, urls[1..], s1);
      assert !s.halted && r == Run(world, urls, s);
      RunSettles(world, urls[1..], s1);
      assert Settled(world, s1.store, urls[0]) by {
        if !Scraped(s.store, urls[0]) && world.page(urls[0]).Page? && world.page(urls[0]).title != "" {
          assert s1.sent != s.sent;
          assert s1.store[|s.store|].url == urls[0];
        }
      }
      if Scraped(s1.store, urls[0]) {
        RunKeepsRecords(world, urls[1..], s1, urls[0]);
      }
      forall u | u in urls ensures Settled(world, r.store, u) {
        if u != urls[0] {
          assert u in urls[1..];
        }
      }
    }
  }

  /** A run over URLs that are all settled changes nothing. */
  lemma {:induction false} SettledRunIsIdle(world: World, urls: seq<string>, s: State)
    requires forall u :: u in urls ==> Settled(world, s.store, u)
    ensures Run(world, urls, s) == s
  {
    if urls != [] && !s.halted {
      assert Settled(world, s.store, urls[0]);
      assert forall u :: u in urls[1..] ==> u in urls;
      SettledRunIsIdle(world, urls[1..], s);
    }
  }

  /**
    Running again over the same discovered URLs, in the same world, after a
    run that did not end early, sends nothing and changes nothing.
   */
  lemma RunAgainIsIdle(world: World, discovered: seq<string>, s: State)
    requires !Main(world, discovered, s).halted
    ensures var s1 := Main(world, discovered, s); Main(world, discovered, s1) == s1
  {
    var todo := Unscraped(discovered, s.store);
    var s1 := Main(world, discovered, s);
    RunSettles(world, todo, s);
    forall u | u in discovered ensures Settled(world, s1.store, u) {
      if u !in todo {
        RunKeepsRecords(world, todo, s, u);
      }
    }
    SettledRunIsIdle(world, Unscraped(discovered, s1.store), s1);
  }

  /** Over a whole `main` run, no page is sent twice, and none the store held beforehand is sent. */
  lemma MainSendsEachPageOnce(world: World, discovered: seq<string>, s: State)
    ensures var r := Main(world, discovered, s);
      && (forall i :: |s.sent| <= i < |r.sent| ==> !Scraped(s.store, r.sent[i].url) && r.sent[i].url in discovered)
      && (forall i, j :: |s.sent| <= i < j < |r.sent| ==> r.sent[i].url != r.sent[j].url)
  {
    RunSendsOnce(world, Unscraped(discovered, s.store), s);
  }

  /** Every message in `sent` after position `n` is one the notifier accepts, with its attachment. */
  ghost predicate Accepted(world: World, n: int, sent: seq<Delivery>) {
    forall i :: 0 <= n <= i < |sent| ==> world.send(sent[i].text, sent[i].attachment)
  }

  /** Every message a run logs is one the notifier accepted, with the attachment it was given. */
  lemma {:induction false} RunDeliveriesAccepted(world: World, urls: seq<string>, s: State)
    ensures Accepted(world, |s.sent|, Run(world, urls, s).sent)
  {
    if !(urls == [] || s.halted) {
      var s1 := ScrapeAndSend(world, urls[0], s);
      StepGrows(world, urls[0], s);
      RunDeliveriesAccepted(world, urls[1..], s1);
      RunLedger(world, urls[1..], s1);
      var r := Run(world, urls[1..], s1);
      assert r == Run(world, urls, s);
      forall i | |s.sent| <= i < |s1.sent| ensures world.send(r.sent[i].text, r.sent[i].attachment) {
        assert s1.store != s.store && i == |s.sent|;
        assert r.sent[i] == r.sent[..|s1.sent|][i] == s1.sent[i];
      }
    }
  }

  /** The loop takes the URLs in list order: running over `a + b` is running over `a`, then over `b`. */
  lemma {:induction false} RunAppend(world: World, a: seq<string>, b: seq<string>, s: State)
    ensures Run(world, a + b, s) == Run(world, b, Run(world, a, s))
  {
    if a == [] {
      assert a + b == b;
    } else if !s.halted {
      assert (a + b)[0] == a[0];
      assert (a + b)[1..] == a[1..] + b;
      RunAppend(world, a[1..], b, ScrapeAndSend(world, a[0], s));
    }
  }

  /** One URL is one step, unless an exception has already ended the run. */
  lemma RunSingle(world: World, u: string, s: State)
    ensures Run(world, [u], s) == if s.halted then s else ScrapeAndSend(world, u, s)
  {
    assert [u][1..] == [];
  }
}

=== FILE: strings.dfy ===
/**
  The handful of Python `str` operations the scraper relies on, written over
  `string` (a sequence of Unicode code points, as Python's `str` is).
 */
module Strings {

  /** `t` occurs in `s` starting at index `i`. */
  predicate OccursAt(s: string, t: string, i: int) {
    0 <= i && i + |t| <= |s| && s[i..i + |t|] == t
  }

  /** Python's `t in s` on strings: case-sensitive substring containment. */
  function Contains(s: string, t: string): (b: bool)
    ensures b <==> exists i :: OccursAt(s, t, i)
    decreases |s|
  {
    if OccursAt(s, t, 0) then true
    else if |s| <= |t| then false
    else
      var r := Contains(s[1..], t);
      assert forall i :: OccursAt(s[1..], t, i) ==> OccursAt(s, t, i + 1) by {
        forall i | OccursAt(s[1..], t, i) ensures OccursAt(s, t, i + 1) {
          assert s[1..][i..i + |t|] == s[i + 1..i + 1 + |t|];
        }
      }
      assert forall i :: OccursAt(s, t, i) ==> i == 0 || OccursAt(s[1..], t, i - 1) by {
        forall i | OccursAt(s, t, i) && i != 0 ensures OccursAt(s[1..], t, i - 1) {
          assert s[1..][i - 1..i - 1 + |t|] == s[i..i + |t|];
        }
      }
      r
  }

  /** Any occurrence, wherever it sits in a concatenation, makes `Contains` true. */
  lemma ContainsMiddle(a: string, b: string, c: string)
    ensures Contains(a + b + c, b)
  {
    assert (a + b + c)[|a|..|a| + |b|] == b;
    assert OccursAt(a + b + c, b, |a|);
  }

  /** Containment is transitive: an occurrence inside an occurrence is an occurrence. */
  lemma ContainsTransitive(a: string, b: string, c: string)
    requires Contains(a, b) && Contains(b, c)
    ensures Contains(a, c)
  {
    var i :| OccursAt(a, b, i);
    var j :| OccursAt(b, c, j);
    forall k | 0 <= k < |c| ensures a[i + j + k] == c[k] {
      assert b[j..j + |c|][k] == b[j + k];
      assert a[i..i + |b|][j + k] == a[i + j + k];
    }
    assert a[i + j..i + j + |c|] == c;
    assert OccursAt(a, c, i + j);
  }

  /** A string lacking one of `t`'s characters cannot contain `t`. */
  lemma MissingCharacterRulesOut(s: string, t: string, c: char)
    requires c in t && c !in s
    ensures !Contains(s, t)
  {
    var k :| 0 <= k < |t| && t[k] == c;
    forall i ensures !OccursAt(s, t, i) {
      if 0 <= i && i + |t| <= |s| {
        assert s[i..i + |t|][k] == s[i + k];
      }
    }
  }

  /** Python's `s.rfind(c)` for one character: the last index holding `c`, or -1. */
  function RFind(s: string, c: char): (r: int)
    ensures -1 <= r < |s|
    ensures 0 <= r ==> s[r] == c
    ensures forall j :: r < j < |s| ==> s[j] != c
  {
    if |s| == 0 then -1
    else if s[|s| - 1] == c then |s| - 1
    else RFind(s[..|s| - 1], c)
  }

  /** Python's `s.find(c)` for one character: the first index holding `c`, or -1. */
  function Find(s: string, c: char): (r: int)
    ensures -1 <= r < |s|
    ensures 0 <= r ==> s[r] == c
    ensures forall j :: 0 <= j < |s| && (r < 0 || j < r) ==> s[j] != c
  {
    if |s| == 0 then -1
    else if s[0] == c then 0
    else
      var r := Find(s[1..], c);
      if r < 0 then -1 else r + 1
  }

  /** Every character of `s` is `c`. */
  predicate AllChar(s: string, c: char) {
    forall j :: 0 <= j < |s| ==> s[j] == c
  }

  /** Python's `s.lstrip(c)` for one character. */
  function TrimStart(s: string, c: char): (r: string)
    ensures |r| <= |s| && r == s[|s| - |r|..]
    ensures AllChar(s[..|s| - |r|], c)
    ensures r == [] || r[0] != c
  {
    if |s| > 0 && s[0] == c then
      var r := TrimStart(s[1..], c);
      assert s[1..][..|s| - 1 - |r|] == s[1..|s| - |r|];
      r
    else s
  }

  /** Python's `s.rstrip(c)` for one character. */
  function TrimEnd(s: string, c: char): (r: string)
    ensures |r| <= |s| && r == s[..|r|]
    ensures AllChar(s[|r|..], c)
    ensures r == [] || r[|r| - 1] != c
  {
    if |s| > 0 && s[|s| - 1] == c then
      var r := TrimEnd(s[..|s| - 1], c);
      assert s[..|s| - 1][|r|..] == s[|r|..|s| - 1];
      r
    else s
  }

  /** Python's `s.strip(c)` for one character: `s` with every leading and every trailing `c` removed. */
  function Strip(s: string, c: char): (r: string)
    ensures r == [] || (r[0] != c && r[|r| - 1] != c)
  {
    TrimEnd(TrimStart(s, c), c)
  }

  /** What `Strip` keeps is a contiguous slice of `s` bordered only by `c`s. */
  lemma StripShape(s: string, c: char)
    ensures exists lo, hi :: 0 <= lo <= hi <= |s| && s[lo..hi] == Strip(s, c) && AllChar(s[..lo], c) && AllChar(s[hi..], c)
  {
    var t := TrimStart(s, c);
    var r := TrimEnd(t, c);
    var lo := |s| - |t|;
    var hi := lo + |r|;
    assert s[lo..hi] == Strip(s, c) by {
      assert t == s[lo..] && r == t[..|r|];
    }
    assert AllChar(s[hi..], c) by {
      assert s[hi..] == t[|r|..];
    }
  }

  /**
    The slice `Strip` keeps is the only one of its kind: any decomposition of
    `s` into a run of `c`s, a core neither starting nor ending with `c`, and
    another run of `c`s has `Strip(s, c)` as its core.
   */
  lemma StripUnique(s: string, c: char, lo: int, hi: int)
    requires 0 <= lo <= hi <= |s|
    requires AllChar(s[..lo], c) && AllChar(s[hi..], c)
    requires lo == hi || (s[lo] != c && s[hi - 1] != c)
    ensures Strip(s, c) == s[lo..hi]
  {
    if lo == hi {
      StripAllChar(s, c, lo);
    } else {
      StripCore(s, c, lo, hi);
    }
  }

  /** A string made of two runs of `c` strips to nothing. */
  lemma StripAllChar(s: string, c: char, k: int)
    requires 0 <= k <= |s| && AllChar(s[..k], c) && AllChar(s[k..], c)
    ensures Strip(s, c) == []
  {
    assert AllChar(s, c) by {
      forall j | 0 <= j < |s| ensures s[j] == c {
        if j < k { assert s[..k][j] == s[j]; } else { assert s[k..][j - k] == s[j]; }
      }
    }
    TrimStartAll(s, c);
    assert Strip(s, c) == TrimEnd([], c);
  }

  /**
    The first non-`c` character of `s` is at `lo`, so `TrimStart` stops
    there; symmetrically `TrimEnd` stops at `hi - lo` within what is left.
   */
  lemma StripCore(s: string, c: char, lo: int, hi: int)
    requires 0 <= lo < hi <= |s|
    requires AllChar(s[..lo], c) && AllChar(s[hi..], c)
    requires s[lo] != c && s[hi - 1] != c
    ensures Strip(s, c) == s[lo..hi]
  {
    TrimStartStops(s, c, lo);
    TrimEndOfSuffix(s, c, lo, hi);
  }

  /** `TrimEnd` on the suffix from `lo` stops at `hi`. */
  lemma TrimEndOfSuffix(s: string, c: char, lo: int, hi: int)
    requires 0 <= lo < hi <= |s|
    requires AllChar(s[hi..], c) && s[hi - 1] != c
    ensures TrimEnd(s[lo..], c) == s[lo..hi]
  {
    var t := s[lo..];
    assert t[hi - lo..] == s[hi..];
    assert t[hi - lo - 1] == s[hi - 1];
    TrimEndStops(t, c, hi - lo);
    assert t[..hi - lo] == s[lo..hi];
  }

  /** A string made only of `c` strips to nothing. */
  lemma {:induction false} TrimStartAll(s: string, c: char)
    requires AllChar(s, c)
    ensures TrimStart(s, c) == []
  {
    if |s| > 0 {
      assert AllChar(s[1..], c) by {
        forall j | 0 <= j < |s| - 1 ensures s[1..][j] == c { assert s[1..][j] == s[j + 1]; }
      }
      TrimStartAll(s[1..], c);
    }
  }

  /** `TrimStart` stops at the first character other than `c`. */
  lemma {:induction false} TrimStartStops(s: string, c: char, lo: int)
    requires 0 <= lo < |s| && AllChar(s[..lo], c) && s[lo] != c
    ensures TrimStart(s, c) == s[lo..]
  {
    if lo > 0 {
      assert s[0] == s[..lo][0];
      var rest := s[1..][..lo - 1];
      assert AllChar(rest, c) by {
        forall j | 0 <= j < lo - 1 ensures rest[j] == c { assert rest[j] == s[..lo][j + 1]; }
      }
      TrimStartStops(s[1..], c, lo - 1);
      assert s[1..][lo - 1..] == s[lo..];
    }
  }

  /** `TrimEnd` stops after the last character other than `c`. */
  lemma {:induction false} TrimEndStops(s: string, c: char, hi: int)
    requires 0 < hi <= |s| && AllChar(s[hi..], c) && s[hi - 1] != c
    ensures TrimEnd(s, c) == s[..hi]
  {
    if hi < |s| {
      var t := s[..|s| - 1];
      assert s[|s| - 1] == s[hi..][|s| - 1 - hi];
      assert AllChar(t[hi..], c) by {
        forall j | 0 <= j < |t| - hi ensures t[hi..][j] == c { assert t[hi..][j] == s[hi..][j]; }
      }
      TrimEndStops(t, c, hi);
      assert t[..hi] == s[..hi];
    } else {
      assert s[..hi] == s;
    }
  }

  /** Lines `xs`, each followed by a newline, as built up by `message += line + "\n"`. */
  function JoinLines(xs: seq<string>): (r: string)
  {
    if xs == [] then "" else xs[0] + "\n" + JoinLines(xs[1..])
  }

  /** The lines of `s`: the pieces between newlines; a final newline ends the last line. */
  function SplitLines(s: string): (r: seq<string>)
    decreases |s|
  {
    if s == "" then []
    else
      var i := Find(s, '\n');
      if i < 0 then [s] else [s[..i]] + SplitLines(s[i + 1..])
  }

  /** Splitting undoes joining when no line itself holds a newline. */
  lemma {:induction false} SplitJoinLines(xs: seq<string>)
    requires forall i :: 0 <= i < |xs| ==> '\n' !in xs[i]
    ensures SplitLines(JoinLines(xs)) == xs
  {
    if xs != [] {
      var rest := JoinLines(xs[1..]);
      assert SplitLines(JoinLines(xs)) == [xs[0]] + SplitLines(rest) by {
        FirstLine(xs[0], rest);
      }
      assert SplitLines(rest) == xs[1..] by {
        assert forall i :: 0 <= i < |xs| - 1 ==> xs[1..][i] == xs[i + 1];
        SplitJoinLines(xs[1..]);
      }
      assert [xs[0]] + xs[1..] == xs;
    }
  }

  /** The first newline of `a + "\n" + rest`, for `a` without one, ends `a`. */
  lemma FirstLine(a: string, rest: string)
    requires '\n' !in a
    ensures var s := a + "\n" + rest; Find(s, '\n') == |a| && s[..|a|] == a && s[|a| + 1..] == rest
  {
    var s := a + "\n" + rest;
    assert s[|a|] == '\n';
    assert forall j :: 0 <= j < |a| ==> s[j] == a[j];
  }
}

=== FILE: wrappers.dfy ===
/** The optional value used wherever the scraper returns `None` on a failure path. */
module Wrappers {

  datatype Option<+T> = None | Some(value: T)
}
